=== FILE: README.md ===
# flux.ai shopping tracker: a Dafny model of its deterministic core

flux.ai tracks what a shopper looks at on five retailers and turns it into
spending analytics and advice. It has three parts:

- a browser extension: a content script that scrapes product pages, and a
  background worker that relays the scraped events to the backend;
- an Express/Mongoose backend. It comes as two variants:
  - a standalone `server/index.js`;
  - a routed server made of controllers, a validation middleware and a
    category extractor;
- a Python script, `ai_agents.py`, that groups and totals a user's purchases
  around LLM calls.

This project models the rules under the I/O of these parts. Each source file
has its own module:

| module | source |
|---|---|
| `Common` | shared helpers: the JavaScript value model (`Value`, truthiness, property access), substring search, `trim`, `split`, ASCII lower-casing |
| `Content` | `extension/content.js` |
| `Background` | `extension/background.js` |
| `Validation` | `server/middleware/validation.js` |
| `Cors` | the origin rule of `server/config/server.js`, which `server/index.js` repeats verbatim |
| `UserController` | `server/controllers/User.js` |
| `EventController` | `server/controllers/Event.js` |
| `Analytics` | `server/controllers/Analytics.js`; its session fold is the same code as the one in `server/index.js` |
| `CategoryExtractor` | `server/utils/categoryExtractor.js` |
| `ApiServer` | `server/index.js`: its payload check, the POST handler and the session route |
| `Agents` | `ai_agents.py`: the non-LLM part |
| `Pipeline` | what the two backends do with the bodies the extension actually posts |

Foreign calls become parameters:

- the DOM is a map from CSS selector to text;
- `fetch` is a sequence of exchanges, one per attempt;
- `JSON.parse` is a function that may fail;
- the clock and `Math.random` are strings;
- the MongoDB collections are fields of classes;
- the LLM reply is an input.

Stateful pieces are classes whose methods say exactly how the state changes:

- `Content.ProductTracker`
- `Background.ProductAnalyticsService`
- `UserController.UserStore`
- `EventController.EventStore`
- `ApiServer.EventLog`
- `Agents.Vocabulary`

Loops in the source are loops in the model. Most are proved against a
specification function built one element at a time from the end of the
input. The relay's retry loop and the brand/category extraction loop are
proved by invariants that state the result directly.

Notes on what the code does:

- The relay's rule `attempt < MAX_RETRIES` makes at most `MAX_RETRIES`
  attempts in total, not `MAX_RETRIES` retries after the first attempt. With
  `MAX_RETRIES = 1` there is no retry at all.
- The routed validator checks `username` but reports `userId` in its list of
  required fields.
- The extension never sends `eventType`, `productTitle` or `username`.
  - The routed server therefore rejects every extension event with 400.
  - The standalone server answers 400 when no title was scraped, because
    its check needs a non-empty `productDetails`, which the extension fills
    with the scraped title (server/index.js:134, extension/content.js:91).
    Otherwise it refuses to save them, with 500.
  - The `Pipeline` module proves both.
- `trackUserInteraction` returns its metrics before any scroll can happen, so
  every exit message reports a scroll depth of 0 and a time spent of 0.

## Model

| member | source | states |
|---|---|---|
| `Common.ContainsAt` | extension/content.js:57 | `includes` holds whenever the text occurs at some position |
| `Common.ContainsWitness` | extension/content.js:57 | when `includes` holds, the text occurs at a position it returns |
| `Common.SplitJoin` | server/utils/categoryExtractor.js:3 | the parts `split('\n')` returns join back to the input |
| `Common.Truthy` | server/utils/categoryExtractor.js:25 | falsy exactly for `undefined`, `null`, `false`, `0` and `""`; every array and object is truthy |
| `Common.Trim` | server/utils/categoryExtractor.js:7 | the result is a contiguous slice of the input that neither starts nor ends with whitespace, and everything cut from either end is whitespace |
| `Common.Split` | server/utils/categoryExtractor.js:3 | at least one part, and no part contains the separator |
| `Common.Lower` | ai_agents.py:157 | same length as the input, each character lowered on its own |
| `Content.DetectPlatform` | extension/content.js:55-63 | amazon, ebay, walmart, bestbuy and target are checked in that order. The first name the host name contains wins. The result is null exactly when the host name contains none of the five |
| `Content.MatchesAny` | extension/content.js:68-76 | a pattern alternative test holds exactly when some alternative occurs in the URL |
| `Content.Patterns` | extension/content.js:68-74 | Amazon has the two alternatives `/dp/` and `/gp/product/`; every other platform has one |
| `Content.PatternsAreSegments` | extension/content.js:68-74 | every alternative is a path segment that starts and ends with `/` |
| `Content.IsProductPage` | extension/content.js:66-77 | false without a platform. Otherwise true exactly when the URL contains one of that platform's path fragments |
| `Content.ProductPageByPlatform` | extension/content.js:68-74 | per platform: amazon `/dp/` or `/gp/product/`, ebay `/itm/`, walmart `/ip/`, bestbuy `/products/`, target `/p/`, each in both directions |
| `Content.Selectors` | extension/content.js:5-46 | every platform's selector table has exactly the six keys title, price, rating, reviews, availability, category |
| `Content.TextContent` | extension/content.js:83-86 | null exactly when the selector matches nothing. Otherwise the trimmed text |
| `Content.SessionId` | extension/content.js:103-105 | the id starts with the platform name followed by `-` |
| `Content.GetProductInfo` | extension/content.js:80-99 | null exactly when there is no platform. Otherwise the record carries the platform, the page address, the timestamp and a session id with the platform prefix. Each selector-table key fills its field from its own selector |
| `Content.Scrape` | extension/content.js:88-99 | the record of a page has the given platform, address, timestamp and session id, and each of its six scraped fields is the trimmed text its own selector finds |
| `Content.ProductPageHasInfo` | extension/content.js:129-137 | on a product page the record is never null, so the null check after the page check never fires |
| `Content.RoundToSeconds` | extension/content.js:160 | `Math.round(ms / 1000)` lies within half a second of `ms` |
| `Content.InitialMetrics` | extension/content.js:108-126 | the metrics object is returned before any scroll event: scroll depth 0 and time spent 0 |
| `Content.TextValue` | extension/content.js:83-86 | a found text is sent as a string and a missing one as null |
| `Content.InfoFields` | extension/content.js:88-99 | the record as an object has exactly its ten keys, with platform, URL, session id and title as built |
| `Content.Message.Added` | extension/content.js:140-162 | a view adds only `event` = `page_view`. An exit adds `event` = `page_exit` and the scroll depth, time spent and total time, each as a number |
| `Content.AddedOutsideInfo` | extension/content.js:140-162 | none of the added fields overwrites a field of the spread product record |
| `Content.Message.Data` | extension/content.js:140-162 | the message data is the spread record plus `event` (`page_view` / `page_exit`). An exit also carries scroll depth, time spent and total time as numbers. The record's fields are unchanged |
| `Content.ProductTracker.constructor` | extension/content.js:3-52 | the platform is detected from the host name, then `initialize` runs |
| `Content.ProductTracker.Initialize` | extension/content.js:129-164 | off a product page, nothing is sent and no listener is registered. On one, exactly one PRODUCT_VIEW is sent and one exit listener holds the same record and metrics (0, 0) |
| `Content.ProductTracker.BeforeUnload` | extension/content.js:153-162 | with a registered listener exactly one PRODUCT_EXIT is appended, carrying the captured record and metrics and the rounded total time. Without one, nothing is sent |
| `Content.Visit` | extension/content.js:129-169 | a product page produces exactly a view followed by an exit for the same record, with scroll depth and time spent 0. Any other page produces nothing |
| `Background.ErrorMessage` | extension/background.js:38-40 | a bad status fails with exactly "Server responded with status: " followed by the status in decimal. A network error or an unparsable body keeps its own message |
| `Background.AttemptOutcome` | extension/background.js:23-44 | an attempt succeeds with the parsed body exactly when the reply is ok and its body parses. A non-ok status fails with that status, a network error with its message, and an ok reply whose body does not parse with the parser's message |
| `Background.EnrichedBody` | extension/background.js:31-35 | the posted body is the data plus `extensionVersion` and `recordedAt`. Every other field is unchanged |
| `Background.AttemptLimit` | extension/background.js:47-52 | the number of attempts is max(1, MAX_RETRIES): exactly 1 when MAX_RETRIES is below 1, and MAX_RETRIES otherwise |
| `Background.ProductAnalyticsService.constructor` | extension/background.js:2-7 | base URL `http://localhost:3000/api`, MAX_RETRIES 1, retry delay 1000 ms |
| `Background.IsForwarded` | extension/background.js:12 | forwarded exactly when the type is `PRODUCT_VIEW` or `PRODUCT_EXIT` |
| `Background.ProductAnalyticsService.SendToServer` | extension/background.js:22-54 | between 1 and the attempt limit requests are made, each with the enriched body and the tab id as text. Every attempt but the last failed. The result is the last attempt's outcome. A failure means the limit was used up |
| `Background.ProductAnalyticsService.HandleMessage` | extension/background.js:10-19 | exactly PRODUCT_VIEW and PRODUCT_EXIT are handled. Others cause no request and no reply. A handled message is answered with the parsed body or `{error: message}` of the last attempt |
| `Background.SingleAttemptOnFailure` | extension/background.js:4 | with MAX_RETRIES = 1 exactly one request is made and its outcome is final |
| `Validation.ValidateEventPayload` | server/middleware/validation.js:1-11 | `next` exactly when sessionId, platform, productUrl, productTitle and username are all truthy. Otherwise 400 "Missing required fields" with the fixed list naming `userId` |
| `Validation.EmptyStringIsMissing` | server/middleware/validation.js:4 | an empty string in a checked field is rejected |
| `Validation.PriceIsNotChecked` | server/middleware/validation.js:2-4 | changing `price` never changes the verdict |
| `Cors.CheckOrigin` | server/config/server.js:6-12 | allowed exactly when an origin is present and starts with `chrome-extension://` or `http://localhost`. Otherwise refused with "Not allowed by CORS" |
| `Cors.AcceptedOriginsAreExtensionClosed` | server/config/server.js:7 | any extension of an accepted origin is accepted |
| `Cors.LookalikeHostAccepted` | server/index.js:35 | `http://localhost.example.com` is accepted |
| `Cors.SecureLocalhostRefused` | server/index.js:35-39 | `https://localhost:3000` is refused |
| `UserController.UserStore.constructor` | server/models/User.js:1-12 | the users collection starts empty |
| `UserController.RequiredPresent` | server/models/User.js:4-6 | refused exactly when the username, the email or the password is the empty string |
| `UserController.UserStore.Register` | server/controllers/User.js:3-16 | succeeds exactly when username, email and password are non-empty and the name is unused. It stores exactly the given fields. A failure is 400 "Error creating user" and stores nothing. After a success, login with the same password succeeds |
| `UserController.UserStore.Login` | server/controllers/User.js:18-41 | succeeds exactly when the name is stored and the password is string-equal, returning the stored name and token `logged-in`. Otherwise 400 "Invalid credentials". It reads the store only |
| `UserController.RegisterTwice` | server/models/User.js:4 | a second registration under a used name fails with 400 |
| `EventController.FindUser` | server/controllers/Event.js:6 | for a string name, a user is found exactly when the name is stored, and it is that name's user |
| `EventController.EventStore.constructor` | server/controllers/Event.js:1-2 | the event log starts empty |
| `EventController.EventStore.RecordEvent` | server/controllers/Event.js:4-33 | an unknown user gets 404 and nothing is saved. A failed save gets 500 with details only in development mode, and nothing is saved. Otherwise one event is appended with the found user's id and every other body field, and its id is returned |
| `Analytics.Platforms` | server/controllers/Analytics.js:29 | the platforms of the events, index by index |
| `Analytics.FirstIndex` | server/controllers/Analytics.js:29 | the first position of a value |
| `Analytics.FirstSeenProperties` | server/controllers/Analytics.js:21-41 | the platform list has no duplicates, holds exactly the platforms seen, and follows first-occurrence order |
| `Analytics.FirstIndexPrefix` | server/controllers/Analytics.js:29 | appending a value does not move the first occurrence of an earlier one |
| `Analytics.FirstIndexIsFirst` | server/controllers/Analytics.js:29 | a position whose value does not occur earlier is the first occurrence |
| `Analytics.UrlCountBounds` | server/controllers/Analytics.js:19-40 | the number of distinct URLs is at most the number of events, and at least 1 when there are any |
| `Analytics.FoldStep` | server/controllers/Analytics.js:24-30 | how one event extends the total, the URL set and the platform list |
| `Analytics.GetSessionAnalytics` | server/controllers/Analytics.js:4-51 | 404 exactly when there are no events. Otherwise the total is the sum of the present, truthy times, and productsViewed is the number of distinct URLs, between 1 and the event count. The average divides by that count, the platforms are listed in first-seen order, and the events are returned unchanged |
| `Analytics.Accumulate` | server/controllers/Analytics.js:17-30 | the `forEach` pass yields the sum of the present, truthy times, the set of URLs and the platforms in first-seen order |
| `Analytics.PlatformsExample` | server/index.js:200-213 | amazon, ebay, amazon lists amazon, ebay |
| `Analytics.ProductNames` | server/controllers/Analytics.js:91 | the names of the products, index by index |
| `Analytics.ToCards` | server/controllers/Analytics.js:89-92 | one card per category in order, with title = category name and products = the product names in order |
| `Analytics.GetCategories` | server/controllers/Analytics.js:54-99 | the sample data gives two cards, Electronics and Miscellaneous, with two products each |
| `CategoryExtractor.LastBelow` | server/utils/categoryExtractor.js:6-17 | the last non-blank, parseable trimmed line below a bound, or none when there is no such line |
| `CategoryExtractor.FindJsonLine` | server/utils/categoryExtractor.js:4-17 | the backward loop keeps the trimmed text of the last non-blank line that parses, or `''` when there is none |
| `CategoryExtractor.LastIsUnique` | server/utils/categoryExtractor.js:11-12 | a parseable line with no parseable line after it is the one chosen |
| `CategoryExtractor.LastNone` | server/utils/categoryExtractor.js:19-21 | when no line qualifies, none is chosen |
| `CategoryExtractor.ProductNames` | server/utils/categoryExtractor.js:37-39 | a name is listed exactly when some truthy product carries it as a string `product_name`. Never more names than products |
| `CategoryExtractor.ProductNamesAppend` | server/utils/categoryExtractor.js:37-39 | the product filter/map distributes over concatenation, so names keep the products' order |
| `CategoryExtractor.KeepCategories` | server/utils/categoryExtractor.js:29-41 | at most one card per category, and no card has an empty product list |
| `CategoryExtractor.KeepCategoriesAppend` | server/utils/categoryExtractor.js:29-41 | the filter/map/filter chain distributes over concatenation, so it keeps input order |
| `CategoryExtractor.KeepCategoriesSound` | server/utils/categoryExtractor.js:29-41 | every output card is the card of a category that passes all three steps |
| `CategoryExtractor.SourceOf` | server/utils/categoryExtractor.js:29-41 | names, for each output card, the kept input category it was made from |
| `CategoryExtractor.KeepCategoriesComplete` | server/utils/categoryExtractor.js:29-41 | the card of every category that passes all three steps is in the output |
| `CategoryExtractor.ExtractFromData` | server/utils/categoryExtractor.js:23-27 | a falsy document or `category_analysis`, or a non-array `categories`, gives `[]`; otherwise the cards are those `KeepCategories` keeps from `categories`, and none has an empty product list |
| `CategoryExtractor.ExtractCategories` | server/utils/categoryExtractor.js:1-46 | a non-string input gives `[]` (the outer catch). No parseable line gives `[]`. Otherwise the cards of the last parseable line |
| `ApiServer.ValidateEventPayload` | server/index.js:132-142 | `next` exactly when sessionId, platform, productUrl and productDetails are all truthy. Otherwise 400 "Missing required fields" with those four names |
| `ApiServer.HeaderValue` | server/index.js:152-153 | a header is its text, or undefined when absent |
| `ApiServer.MergeMetadata` | server/index.js:150-154 | the merged metadata holds the body's metadata keys plus extensionId and tabId. Those two come from the headers; the other keys are unchanged |
| `ApiServer.BuildRecord` | server/index.js:148-155 | the document has the body's keys plus `metadata`. Every body field except `metadata` is copied unchanged |
| `ApiServer.SchemaAccepts` | server/index.js:59-85 | accepted exactly when `eventType` is the string `VIEW` or `EXIT` and `sessionId`, `platform` and `productUrl` are present, non-empty strings |
| `ApiServer.TimeSpent` | server/index.js:197 | a time is read exactly when `userMetrics.timeSpentSeconds` is a number |
| `ApiServer.SessionEventOf` | server/index.js:196-202 | the fold sees a saved event's URL and platform |
| `ApiServer.SessionEvents` | server/index.js:177-179 | the query returns the fold's view of exactly the events with the session id: each such event is in the result and each result comes from such an event. Never more than the log holds, and none exactly when no event has the id |
| `ApiServer.SessionEventsAppend` | server/index.js:177-179 | the query distributes over concatenation of the log, so the session's events keep log order |
| `ApiServer.EventLog.constructor` | server/index.js:125 | the collection starts empty |
| `ApiServer.EventLog.PostEvent` | server/index.js:145-172 | a failed payload check answers with that verdict. A document the schema refuses (an eventType other than VIEW or EXIT, or a missing or empty sessionId, platform or productUrl) is refused at save time: 500, details only in development mode, nothing saved. A store failure is handled the same way. Otherwise exactly one event with the next id is appended and 200 is returned. Every stored event has eventType VIEW or EXIT, and the i-th stored event has id i |
| `ApiServer.EventLog.GetSessionAnalytics` | server/index.js:175-224 | 404 exactly when no saved event has the session id. Otherwise the shared fold runs over that session's events: productsViewed is the number of their distinct URLs, at least 1 and at most the event count. The time is the sum, the average divides it by productsViewed, and platforms are in first-seen order |
| `ApiServer.MissingEventTypeFailsSave` | server/index.js:66-70 | a body without eventType is never saved |
| `Pipeline.PostedBody` | extension/background.js:31-35 | the body posted for a message has the message data's keys plus the relay's two |
| `Pipeline.PostedKeysBound` | extension/content.js:140-162 | a posted body has no key outside the record's, the message's and the relay's keys |
| `Pipeline.PostedBodyLacksUserAndType` | extension/content.js:140-162 | a posted body has no `username` and no `eventType` |
| `Pipeline.RoutedServerRejectsExtensionEvents` | server/middleware/validation.js:2-8 | every body the extension posts is rejected by the routed validator with 400 |
| `Pipeline.PostedBodyRequiredFields` | extension/content.js:88-99 | the body carries sessionId, platform, productUrl and productDetails as the scraper built them |
| `Pipeline.StandaloneCheckNeedsTitle` | server/index.js:134 | the standalone check passes an extension body exactly when a non-empty title was scraped |
| `Pipeline.CheckOnFields` | server/index.js:132-142 | once session id, platform and address are non-empty strings, the standalone check passes exactly when the title is a non-empty string |
| `Pipeline.StandaloneServerNeverSavesExtensionEvents` | server/index.js:66-70 | no body the extension posts is ever accepted by the standalone schema |
| `Agents.FetchUserDataDefinitionFails` | ai_agents.py:66 | as written, the return annotation of `fetch_user_data` uses `Tuple`, the one name never imported from `typing` |
| `Agents.FetchUserDataDefinitionSucceeds` | ai_agents.py:66 | with `Tuple` imported, every name of the annotation is bound |
| `Agents.ToRawProduct` | ai_agents.py:80-87 | every event becomes a purchased product. Site, name and price default to `''`, `''` and 0 |
| `Agents.ReadReply` | ai_agents.py:139-154 | brand and category are read exactly when the reply parsed to an object. A reply missing either key gets Unknown / Miscellaneous for both. With both keys, each is the reply's string, or Unknown / Miscellaneous when it is not a string |
| `Agents.FindIgnoringCase` | ai_agents.py:157 | the found entry is in the list, equals the value ignoring case, and no earlier entry does. None means no entry does |
| `Agents.EmptyBrandIsDuplicated` | ai_agents.py:157-161 | as written, two replies with an empty brand leave `""` in the brand list twice, breaking the no-duplicates invariant |
| `Agents.AsWrittenAgreesOnNonEmpty` | ai_agents.py:157-168 | the as-written truthiness test and the corrected `is not None` test agree on every non-empty value |
| `Agents.CanonicalizeAsWritten` | ai_agents.py:157-168 | the truthiness found-test as written: the spelling used matches the value ignoring case. Either the list is unchanged and a non-empty existing spelling is reused, or the value is appended. An empty value is always appended again |
| `Agents.Canonicalize` | ai_agents.py:156-168 | a case-insensitive match reuses the existing spelling and leaves the list alone. Otherwise the value is appended at the end. A list without case-insensitive duplicates stays without them |
| `Agents.AssignedGrows` | ai_agents.py:402-410 | a product's brand and category stay in the lists as later products only add to them |
| `Agents.Vocabulary.constructor` | ai_agents.py:402-403 | both lists start empty |
| `Agents.Vocabulary.ExtractBrandAndCategory` | ai_agents.py:134-184 | with the corrected found-test of the finding below: on a parse error or other exception the product gets Unknown / Miscellaneous and both lists are untouched. Otherwise brand and category are canonicalised against the lists, and both end up in the lists. The other product fields are kept, nothing leaves the lists, and they stay free of case-insensitive duplicates |
| `Agents.ExtractAll` | ai_agents.py:402-410 | with the corrected found-test of the finding below: one updated product per product with its own fields kept. An unreadable reply gives Unknown / Miscellaneous. Otherwise the brand and category equal the reply's ignoring case and stand in the final lists. Both lists end without case-insensitive duplicates |
| `Agents.Keys` | ai_agents.py:192 | the keys of a dictionary, in insertion order |
| `Agents.Lookup` | ai_agents.py:191 | a key has a value exactly when it is among the keys |
| `Agents.AppendTo` | ai_agents.py:191 | `d[k].append(p)` adds k at the end when it is new and leaves every other key's list alone |
| `Agents.AddReal` | ai_agents.py:208 | `d[k] += x` adds k at the end when it is new and adds x to the sum of the values |
| `Agents.AddRealLookup` | ai_agents.py:208 | after `d[k] += x` the value under k is the old one plus x, or x when k was new. Every other key's value is unchanged |
| `Agents.AddRealLookupSame` | ai_agents.py:208 | after `d[k] += x` the value under k is the old one plus x, or x when k was new |
| `Agents.AddRealLookupOther` | ai_agents.py:208 | `d[k] += x` leaves the value under every other key unchanged |
| `Agents.AddOne` | ai_agents.py:237 | `d[k] += 1` adds k at the end when it is new and adds 1 to the sum of the counts |
| `Agents.AddOneLookup` | ai_agents.py:237 | after `d[k] += 1` the count under k is the old one plus 1, or 1 when k was new. Every other key's count is unchanged |
| `Agents.AddOneLookupSame` | ai_agents.py:237 | after `d[k] += 1` the count under k is the old one plus 1, or 1 when k was new |
| `Agents.AddOneLookupOther` | ai_agents.py:237 | `d[k] += 1` leaves the count under every other key unchanged |
| `Agents.WithKey` | ai_agents.py:190-191 | a product is kept exactly when it is in the input and carries the key; never more than the input |
| `Agents.Purchased` | ai_agents.py:228 | a product is kept exactly when it is in the input and purchased; never more than the input |
| `Agents.PurchasedAppend` | ai_agents.py:228 | the purchase filter distributes over concatenation, so it keeps input order |
| `Agents.GroupedKeys` | ai_agents.py:187-192 | a key has a group exactly when some product carries it |
| `Agents.GroupedDistinct` | ai_agents.py:187-192 | no key occurs twice in the grouping |
| `Agents.GroupedLookup` | ai_agents.py:187-192 | each group holds exactly the products with its key, in input order, and is never empty |
| `Agents.WithKeyAppend` | ai_agents.py:190-191 | the filter distributes over concatenation, so each group keeps input order |
| `Agents.WithKeyAbsent` | ai_agents.py:190-191 | a key no product carries selects nothing |
| `Agents.GroupedLookupStep` | ai_agents.py:190-191 | one more product extends only its own key's group |
| `Agents.AppendToLookup` | ai_agents.py:191 | `d[k].append(p)` on a `defaultdict(list)` puts p at the end of k's list, starting a new list when k is new, and leaves every other key's list alone |
| `Agents.PreparePromptData` | ai_agents.py:187-200 | the grouping loop computes the grouping specification, with distinct keys and each group exactly its key's products in input order |
| `Agents.PrepareCategoryPromptData` | ai_agents.py:187-192 | every category group is non-empty and holds only products of that category |
| `Agents.PrepareBrandPromptData` | ai_agents.py:195-200 | every brand group is non-empty and holds only products of that brand |
| `Agents.SpendingSum` | ai_agents.py:203-209 | the totals add up to the total price of the purchased products |
| `Agents.SpendingKeys` | ai_agents.py:203-225 | a key has a total exactly when some purchased product carries it |
| `Agents.SpendingLookup` | ai_agents.py:203-225 | each key's total is the total price of the purchased products with that key |
| `Agents.SpendingLookupStep` | ai_agents.py:206-208 | one more product changes only its own key's total, by its price when purchased |
| `Agents.AddPriceLookup` | ai_agents.py:208 | adding a purchased product's price to its own key's total keeps that total equal to the price of its products |
| `Agents.Snoc` | ai_agents.py:206-237 | one more product extends the totals, the counts, the purchased list and each key's selection exactly as the loops do |
| `Agents.TotalPriceSnoc` | ai_agents.py:208 | one more product adds its price to the total price |
| `Agents.ComputeSpending` | ai_agents.py:203-225 | the loop computes the totals specification. The keys are exactly the purchased products' keys. Each key's total is the price of the purchased products with that key, and the totals sum to the purchased total |
| `Agents.ComputeTotalSpendingByCategory` | ai_agents.py:203-209 | the keys are exactly the purchased products' categories. Each category's total is the price of its purchased products, and the totals sum to the purchased total |
| `Agents.ComputeTotalSpendingByBrand` | ai_agents.py:211-217 | the keys are exactly the purchased products' brands. Each brand's total is the price of its purchased products, and the totals sum to the purchased total |
| `Agents.ComputeSpendingByEcommerceSite` | ai_agents.py:219-225 | the keys are exactly the purchased products' sites. Each site's total is the price of its purchased products, and the totals sum to the purchased total |
| `Agents.PurchaseCountProperties` | ai_agents.py:232-238 | the counts add up to the number of purchased products. The keys are exactly the purchased products' categories |
| `Agents.PurchaseCountsLookup` | ai_agents.py:232-238 | each category's count is the number of purchased products in it |
| `Agents.PurchaseCountsLookupStep` | ai_agents.py:235-237 | one more product changes only its own category's count, by one when purchased |
| `Agents.AddCountLookup` | ai_agents.py:237 | counting a purchased product under its own category keeps the count equal to the number of its products |
| `Agents.ComputeNumberOfPurchasesByCategory` | ai_agents.py:232-238 | the counting loop computes the counts specification. The keys are exactly the purchased products' categories, each count is the number of purchased products in that category, and the counts add up to the number of purchased products |
| `Agents.ComputeAverageSpendingPerPurchase` | ai_agents.py:227-230 | the purchased products' prices, index by index, in input order. It is not an average |
| `Agents.PriceListSum` | ai_agents.py:227-230 | the price list sums to the purchased total |
| `Agents.PriceListMatchesTotals` | ai_agents.py:203-230 | the price list and the category totals account for the same money |
| `Agents.FetchedProductsAllPurchased` | ai_agents.py:85 | when every product is marked purchased, the purchased products are all of them |

## Left out

- The DOM, `window.location`, `chrome.runtime`, `fetch`, `Date` and `Math.random` are parameters. The timestamp and random parts of a session id are uninterpreted strings.
- `trackUserInteraction`'s scroll listener is left out. Only the metrics object it returns at once is modelled, which is all the exit message ever carries.
- The relay's `setTimeout` delay between attempts is left out. Only the attempt count is modelled.
- `Common.Trim`, `Common.Lower`: ASCII whitespace and ASCII case only. JavaScript `trim` and Python `lower` also handle Unicode.
- Floating point is not modelled. Prices, times and sums are exact reals, and nothing is claimed about the rounding of `defaultdict(float)` sums or of `averageTimePerProduct`.
- Spreading a string or array `metadata` value, which JavaScript turns into index keys, is left out.
- Mongoose casting and strict-mode filtering of unknown fields are left out. The stored document is the object handed to the model.
- `ApiServer.EventLog.PostEvent`: a number or boolean in `sessionId`, `platform` or `productUrl` is treated as refused by the schema. Mongoose would cast it to a string. The text of the schema's error message is not modelled.
- `UserController.UserStore.Register`: `goals` and `budget` are always supplied. The schema's refusal of a request without them is not represented. Query-operator objects in place of a user name are not represented either.
- `UserController.UserStore.Login`: the name is a string; a query-operator object in its place, which `User.findOne({ username })` would accept (server/controllers/User.js:19-23), is not represented.
- `ApiServer.SchemaAccepts`: Mongoose casts a number or a boolean given for a `String` path to text; the model only accepts values that are already strings.
- `EventController.EventStore.RecordEvent`: a failed `User.findOne` (a database error rather than a missing user) is not modelled. Such an error would also answer 500. The `saveError` parameter also stands for the routed schema refusing the document: server/models/ProductEvent.js:28-35 marks fields such as `price` as required, so a body without `price` is always refused with 500.
- The database sort by timestamp is not modelled. The session events arrive in the order the log holds them, which is save order.
- The LLM prompts, `llm.invoke`, the `generate_*` functions and their `while not result` retry loops are foreign calls without a termination bound. They are not modelled.
- `fetch_user_data` is modelled only as the per-event mapping. Its MongoDB queries and the missing-user `ValueError` are left out.
- `EventController.FindUser`: only a string user name is modelled as able to match. Mongoose would cast a number to a string, and an object such as `{"$ne": null}` would act as a query operator matching any user.
- The `catch` branches that answer a thrown database error are not modelled; the database calls are taken not to throw. These are 400 "Error during login" at server/controllers/User.js:35, and 500 "Failed to fetch session analytics" at server/controllers/Analytics.js:45 and at server/index.js:217.
- `Agents.Vocabulary.ExtractBrandAndCategory`, `Agents.ExtractAll`: they use the corrected found-test `is not None` of the finding below, not the truthiness test as written. `Agents.AsWrittenAgreesOnNonEmpty` proves the two agree on every non-empty brand and category, so only a reply with an empty string is treated differently.
- Rate limiting, helmet, JSON body parsing, the routes, the error middleware, the database connection, listen and SIGTERM shutdown are Express plumbing and are left out. So is the React client.

## Findings

| source | as written | input that shows it | evidently intended | confidence | as-written member | corrected member |
|---|---|---|---|---|---|---|
| ai_agents.py:157-168 | `if existing_brand:` / `if existing_category:` test the found spelling for truthiness, so an existing empty string counts as not found and is appended again | two products whose LLM replies both carry `"productBrand": ""` (or `"productCategory": ""`) | `if existing_brand is not None:`, so a match is reused and the list never holds two entries equal ignoring case | medium, not executed | `Agents.EmptyBrandIsDuplicated` | `Agents.Canonicalize` |
| ai_agents.py:66 | the return annotation names `Tuple`, but lines 3 and 6 import only `List`, `Dict` and `Any` from `typing` | loading the script: the annotation is evaluated when the `def` runs (Python 3.13 and earlier), raising `NameError` before any function can be called | `from typing import Dict, Any, Tuple` | high for Python 3.13 and earlier, not executed | `Agents.FetchUserDataDefinitionFails` | `Agents.FetchUserDataDefinitionSucceeds` |

=== FILE: agents.dfy ===
/** The deterministic part of the financial-advice agent (`ai_agents.py`):
    the mapping of stored events to products, the brand/category
    canonicalisation around the LLM reply, and the groupings and spending
    totals that are fed to the prompts. Python dictionaries keep insertion
    order, so a dictionary is modelled as a list of entries with distinct
    keys, in insertion order. */
module Agents {
  import opened Common

  /** A product as `fetch_user_data` builds it, before brand and category. */
  datatype RawProduct = RawProduct(ecommerceSite: string, productName: string, productPrice: real, productPurchased: bool)

  /** A product after `extract_brand_and_category` has filled in the rest. */
  datatype Product = Product(ecommerceSite: string, productName: string, productPrice: real,
                             productPurchased: bool, productBrand: string, productCategory: string)

  /** The fields of a stored event that `fetch_user_data` reads with `.get`. */
  datatype StoredEvent = StoredEvent(platform: Option<string>, productTitle: Option<string>, price: Option<real>)

  function GetOr<T>(o: Option<T>, default: T): T
  {
    if o.Some? then o.value else default
  }

  /** The per-event mapping of `fetch_user_data`: every event becomes a
      purchased product, with `''`/`0` for missing fields. */
  function ToRawProduct(e: StoredEvent): (p: RawProduct)
    ensures p.productPurchased
    ensures p.ecommerceSite == (if e.platform.Some? then e.platform.value else "")
    ensures p.productName == (if e.productTitle.Some? then e.productTitle.value else "")
    ensures p.productPrice == (if e.price.Some? then e.price.value else 0.0)
  {
    RawProduct(GetOr(e.platform, ""), GetOr(e.productTitle, ""), GetOr(e.price, 0.0), true)
  }

  /** The names the script takes from `typing`, on its two import lines. */
  const TypingImportsAsWritten: set<string> := {"List", "Dict", "Any"}

  /** The `typing` names the return annotation of `fetch_user_data` uses. */
  const FetchUserDataAnnotationNames: set<string> := {"Tuple", "Dict", "Any", "List"}

  /** A `def` statement whose annotations are evaluated when it runs
      succeeds only when every name they use is bound; otherwise it raises
      `NameError`, and the module stops loading there. */
  predicate DefinitionSucceeds(bound: set<string>, used: set<string>)
  {
    used <= bound
  }

  /** As written, `Tuple` is never imported, so defining `fetch_user_data`
      fails and the script cannot be loaded. */
  lemma FetchUserDataDefinitionFails()
    ensures !DefinitionSucceeds(TypingImportsAsWritten, FetchUserDataAnnotationNames)
    ensures FetchUserDataAnnotationNames - TypingImportsAsWritten == {"Tuple"}
  {
    assert "Tuple" in FetchUserDataAnnotationNames && "Tuple" !in TypingImportsAsWritten;
  }

  /** The intended imports add `Tuple`. */
  const TypingImports: set<string> := TypingImportsAsWritten + {"Tuple"}

  lemma FetchUserDataDefinitionSucceeds()
    ensures DefinitionSucceeds(TypingImports, FetchUserDataAnnotationNames)
  {
  }

  // ---------------------------------------------------------------------
  // Brand and category canonicalisation

  /** What the model gets back from `llm.invoke` followed by `json.loads`:
      a parsed JSON value, a `JSONDecodeError`, or any other exception. */
  datatype LlmReply = Parsed(value: Value) | DecodeError | OtherError

  const UnknownBrand := "Unknown"
  const DefaultCategory := "Miscellaneous"

  /** The brand and category read from a reply, after the key check and the
      `isinstance(..., str)` checks; None when the code ends in an `except`
      branch. A parsed value that is not an object fails on its first
      subscript or `.get`, which the generic handler catches. */
  function ReadReply(reply: LlmReply): (r: Option<(string, string)>)
    ensures reply.Parsed? && reply.value.Obj? <==> r.Some?
    ensures r.Some? && !("productBrand" in reply.value.fields && "productCategory" in reply.value.fields) ==>
      r.value == (UnknownBrand, DefaultCategory)
    ensures r.Some? && "productBrand" in reply.value.fields && "productCategory" in reply.value.fields ==>
      var brand := reply.value.fields["productBrand"];
      var category := reply.value.fields["productCategory"];
      && r.value.0 == (if brand.Str? then brand.s else UnknownBrand)
      && r.value.1 == (if category.Str? then category.s else DefaultCategory)
  {
    match reply
    case Parsed(Obj(fields)) =>
      var fields := if "productBrand" in fields && "productCategory" in fields then fields
                    else fields["productBrand" := Str(UnknownBrand)]["productCategory" := Str(DefaultCategory)];
      var brand := fields["productBrand"];
      var category := fields["productCategory"];
      Some((if brand.Str? then brand.s else UnknownBrand, if category.Str? then category.s else DefaultCategory))
    case _ => None
  }

  /** The first entry of `names` equal to `value` ignoring case, as the
      generator expression passed to `next` finds it. */
  function FindIgnoringCase(names: seq<string>, value: string): (r: Option<string>)
    ensures r.Some? ==> r.value in names && SameIgnoringCase(r.value, value)
    ensures r.Some? ==> exists i :: 0 <= i < |names| && names[i] == r.value && NoMatchBefore(names, value, i)
    ensures r.None? ==> forall n :: n in names ==> !SameIgnoringCase(n, value)
  {
    if names == [] then None
    else if SameIgnoringCase(names[0], value) then Some(names[0])
    else
      var r := FindIgnoringCase(names[1..], value);
      assert r.Some? ==> exists i :: 0 <= i < |names| && names[i] == r.value && NoMatchBefore(names, value, i) by {
        if r.Some? {
          var i :| 0 <= i < |names[1..]| && names[1..][i] == r.value && NoMatchBefore(names[1..], value, i);
          assert names[i + 1] == r.value;
          assert NoMatchBefore(names, value, i + 1) by {
            forall j | 0 <= j < i + 1 ensures !SameIgnoringCase(names[j], value) {
              if j > 0 {
                assert names[j] == names[1..][j - 1];
              }
            }
          }
        }
      }
      r
  }

  /** No entry before position i equals `value` ignoring case. */
  predicate NoMatchBefore(names: seq<string>, value: string, i: int)
    requires 0 <= i <= |names|
  {
    forall j :: 0 <= j < i ==> !SameIgnoringCase(names[j], value)
  }

  /** No two entries are equal ignoring case. */
  predicate NoCaseDuplicates(names: seq<string>)
  {
    forall i, j :: 0 <= i < j < |names| ==> !SameIgnoringCase(names[i], names[j])
  }

  /** Canonicalisation as the source writes it: `if existing:` tests the
      found spelling for truthiness, so an existing empty string counts as
      not found and is appended again. Result: the spelling used and the
      new list. */
  function CanonicalizeAsWritten(names: seq<string>, value: string): (r: (string, seq<string>))
    ensures SameIgnoringCase(r.0, value)
    ensures r.1 == names || r.1 == names + [value]
    ensures r.1 == names ==> r.0 in names && r.0 != ""
    ensures value == "" ==> r == ("", names + [""])
  {
    var existing := FindIgnoringCase(names, value);
    if existing.Some? && existing.value != "" then (existing.value, names)
    else (value, names + [value])
  }

  /** The truthiness test differs from the intended `is not None` test only
      for the empty string: a non-empty value never matches an empty entry. */
  lemma AsWrittenAgreesOnNonEmpty(names: seq<string>, value: string)
    requires value != ""
    ensures CanonicalizeAsWritten(names, value) == Canonicalize(names, value)
  {
    var existing := FindIgnoringCase(names, value);
    if existing.Some? {
      assert |Lower(existing.value)| == |Lower(value)|;
    }
  }

  /** Two replies with an empty brand leave the empty brand in the list
      twice, which breaks the no-duplicates invariant. */
  lemma EmptyBrandIsDuplicated()
    ensures var (_, once) := CanonicalizeAsWritten([], "");
      var (_, twice) := CanonicalizeAsWritten(once, "");
      twice == ["", ""] && !NoCaseDuplicates(twice)
  {
    assert FindIgnoringCase([""], "") == Some("");
    assert SameIgnoringCase(["", ""][0], ["", ""][1]);
  }

  /** Canonicalisation as intended (`if existing is not None:`): reuse the
      existing spelling when one matches ignoring case and leave the list
      alone; otherwise append the value at the end. */
  function Canonicalize(names: seq<string>, value: string): (r: (string, seq<string>))
    ensures SameIgnoringCase(r.0, value)
    ensures (exists n :: n in names && SameIgnoringCase(n, value)) ==> r.0 in names && r.1 == names
    ensures (forall n :: n in names ==> !SameIgnoringCase(n, value)) ==> r.0 == value && r.1 == names + [value]
    ensures NoCaseDuplicates(names) ==> NoCaseDuplicates(r.1)
    ensures r.0 in r.1 && forall n :: n in names ==> n in r.1
  {
    var existing := FindIgnoringCase(names, value);
    if existing.Some? then (existing.value, names)
    else
      var r := names + [value];
      assert forall i :: 0 <= i < |names| ==> r[i] == names[i] && r[i] in names;
      (value, r)
  }

  /** The brand and category lists shared by the calls of one analysis run. */
  class Vocabulary {
    var brands: seq<string>
    var categories: seq<string>

    ghost predicate Valid()
      reads this
    {
      NoCaseDuplicates(brands) && NoCaseDuplicates(categories)
    }

    /** The lists start empty. */
    constructor ()
      ensures Valid() && brands == [] && categories == []
    {
      brands := [];
      categories := [];
    }

    /** `extract_brand_and_category` after the LLM call: on an exception the
        product gets "Unknown"/"Miscellaneous" and the lists are untouched;
        otherwise brand and category are canonicalised against the lists,
        which grow by at most one entry each, and stay free of duplicates. */
    method ExtractBrandAndCategory(product: RawProduct, reply: LlmReply) returns (updated: Product)
      requires Valid()
      modifies this
      ensures Valid()
      ensures updated.ecommerceSite == product.ecommerceSite && updated.productName == product.productName
      ensures updated.productPrice == product.productPrice && updated.productPurchased == product.productPurchased
      ensures ReadReply(reply).None? ==>
        && brands == old(brands) && categories == old(categories)
        && updated.productBrand == UnknownBrand && updated.productCategory == DefaultCategory
      ensures ReadReply(reply).Some? ==>
        var (brand, category) := ReadReply(reply).value;
        && (updated.productBrand, brands) == Canonicalize(old(brands), brand)
        && (updated.productCategory, categories) == Canonicalize(old(categories), category)
      ensures updated.productBrand in brands || (ReadReply(reply).None? && updated.productBrand == UnknownBrand)
      ensures updated.productCategory in categories || (ReadReply(reply).None? && updated.productCategory == DefaultCategory)
      ensures forall b :: b in old(brands) ==> b in brands
      ensures forall c :: c in old(categories) ==> c in categories
    {
      var read := ReadReply(reply);
      if read.None? {
        return Product(product.ecommerceSite, product.productName, product.productPrice,
                       product.productPurchased, UnknownBrand, DefaultCategory);
      }
      var (brand, category) := read.value;
      var (b, newBrands) := Canonicalize(brands, brand);
      brands := newBrands;
      var (c, newCategories) := Canonicalize(categories, category);
      categories := newCategories;
      updated := Product(product.ecommerceSite, product.productName, product.productPrice,
                         product.productPurchased, b, c);
    }
  }

  /** The extraction loop of `generate_financial_advice`: one reply per
      product, starting from empty lists. Every product keeps its own
      fields; a product whose reply cannot be read gets "Unknown" and
      "Miscellaneous"; any other gets the reply's brand and category up to
      case, spelled as they stand in the final lists; and the lists end
      without case-insensitive duplicates. */
  method ExtractAll(products: seq<RawProduct>, replies: seq<LlmReply>)
    returns (updated: seq<Product>, brands: seq<string>, categories: seq<string>)
    requires |replies| == |products|
    ensures |updated| == |products|
    ensures forall i :: 0 <= i < |products| ==>
      updated[i].productName == products[i].productName && updated[i].productPrice == products[i].productPrice
      && updated[i].ecommerceSite == products[i].ecommerceSite
      && updated[i].productPurchased == products[i].productPurchased
    ensures forall i :: 0 <= i < |products| && ReadReply(replies[i]).None? ==>
      updated[i].productBrand == UnknownBrand && updated[i].productCategory == DefaultCategory
    ensures forall i :: 0 <= i < |products| && ReadReply(replies[i]).Some? ==>
      && SameIgnoringCase(updated[i].productBrand, ReadReply(replies[i]).value.0) && updated[i].productBrand in brands
      && SameIgnoringCase(updated[i].productCategory, ReadReply(replies[i]).value.1) && updated[i].productCategory in categories
    ensures NoCaseDuplicates(brands) && NoCaseDuplicates(categories)
  {
    var vocabulary := new Vocabulary();
    updated := [];
    for i := 0 to |products|
      invariant vocabulary.Valid()
      invariant |updated| == i
      invariant forall k :: 0 <= k < i ==> Carries(updated[k], products[k])
      invariant forall k :: 0 <= k < i ==> Assigned(updated[k], replies[k], vocabulary.brands, vocabulary.categories)
    {
      ghost var before := updated;
      ghost var (oldBrands, oldCategories) := (vocabulary.brands, vocabulary.categories);
      var p := vocabulary.ExtractBrandAndCategory(products[i], replies[i]);
      updated := updated + [p];
      forall k | 0 <= k < i + 1
        ensures Carries(updated[k], products[k])
        ensures Assigned(updated[k], replies[k], vocabulary.brands, vocabulary.categories)
      {
        if k < i {
          assert updated[k] == before[k];
          AssignedGrows(updated[k], replies[k], oldBrands, oldCategories, vocabulary.brands, vocabulary.categories);
        }
      }
    }
    brands, categories := vocabulary.brands, vocabulary.categories;
  }

  /** The product keeps the fields of the raw product it was made from. */
  predicate Carries(p: Product, raw: RawProduct)
  {
    && p.productName == raw.productName && p.productPrice == raw.productPrice
    && p.ecommerceSite == raw.ecommerceSite && p.productPurchased == raw.productPurchased
  }

  /** The brand and category of a product agree with its reply and, when
      the reply was read, stand in the given lists. */
  predicate Assigned(p: Product, reply: LlmReply, brands: seq<string>, categories: seq<string>)
  {
    if ReadReply(reply).None? then p.productBrand == UnknownBrand && p.productCategory == DefaultCategory
    else
      && SameIgnoringCase(p.productBrand, ReadReply(reply).value.0) && p.productBrand in brands
      && SameIgnoringCase(p.productCategory, ReadReply(reply).value.1) && p.productCategory in categories
  }

  lemma AssignedGrows(p: Product, reply: LlmReply, brands: seq<string>, categories: seq<string>,
                      brands': seq<string>, categories': seq<string>)
    requires Assigned(p, reply, brands, categories)
    requires forall b :: b in brands ==> b in brands'
    requires forall c :: c in categories ==> c in categories'
    ensures Assigned(p, reply, brands', categories')
  {
  }

  // ---------------------------------------------------------------------
  // Groupings and aggregations

  /** The product field a grouping or total is keyed by. */
  datatype Key = ByCategory | ByBrand | BySite

  function KeyOf(p: Product, key: Key): string
  {
    match key
    case ByCategory => p.productCategory
    case ByBrand => p.productBrand
    case BySite => p.ecommerceSite
  }

  /** One entry of an insertion-ordered dictionary. */
  datatype Entry<V> = Entry(key: string, value: V)

  function Keys<V>(d: seq<Entry<V>>): (ks: seq<string>)
    ensures |ks| == |d| && forall i :: 0 <= i < |d| ==> ks[i] == d[i].key
  {
    if d == [] then [] else [d[0].key] + Keys(d[1..])
  }

  predicate Distinct(ks: seq<string>)
  {
    forall i, j :: 0 <= i < j < |ks| ==> ks[i] != ks[j]
  }

  /** No key occurs twice, as in a real dictionary. */
  predicate DistinctKeys<V>(d: seq<Entry<V>>)
  {
    Distinct(Keys(d))
  }

  function Lookup<V>(d: seq<Entry<V>>, k: string): (r: Option<V>)
    ensures r.None? <==> k !in Keys(d)
  {
    if d == [] then None else if d[0].key == k then Some(d[0].value) else Lookup(d[1..], k)
  }

  /** `groups[k].append(p)` on a `defaultdict(list)`. */
  function AppendTo(d: seq<Entry<seq<Product>>>, k: string, p: Product): (r: seq<Entry<seq<Product>>>)
    ensures Keys(r) == if k in Keys(d) then Keys(d) else Keys(d) + [k]
  {
    if d == [] then [Entry(k, [p])]
    else if d[0].key == k then [Entry(k, d[0].value + [p])] + d[1..]
    else [d[0]] + AppendTo(d[1..], k, p)
  }

  /** After `d[k].append(p)` the list under k has p at its end, and every
      other key's list is what it was. */
  lemma {:induction false} AppendToLookup(d: seq<Entry<seq<Product>>>, k: string, p: Product, j: string)
    ensures Lookup(AppendTo(d, k, p), j) ==
      if j != k then Lookup(d, j)
      else Some(if k in Keys(d) then Lookup(d, k).value + [p] else [p])
  {
    if d != [] && d[0].key != k {
      AppendToLookup(d[1..], k, p, j);
      var r := AppendTo(d, k, p);
      assert r[1..] == AppendTo(d[1..], k, p);
      assert Keys(d) == [d[0].key] + Keys(d[1..]);
    }
  }

  /** `totals[k] += x` on a `defaultdict(float)`. */
  function AddReal(d: seq<Entry<real>>, k: string, x: real): (r: seq<Entry<real>>)
    ensures Keys(r) == if k in Keys(d) then Keys(d) else Keys(d) + [k]
    ensures SumValues(r) == SumValues(d) + x
  {
    if d == [] then [Entry(k, x)]
    else if d[0].key == k then [Entry(k, d[0].value + x)] + d[1..]
    else [d[0]] + AddReal(d[1..], k, x)
  }

  /** `counts[k] += 1` on a `defaultdict(int)`. */
  function AddOne(d: seq<Entry<nat>>, k: string): (r: seq<Entry<nat>>)
    ensures Keys(r) == if k in Keys(d) then Keys(d) else Keys(d) + [k]
    ensures SumCounts(r) == SumCounts(d) + 1
  {
    if d == [] then [Entry(k, 1)]
    else if d[0].key == k then [Entry(k, d[0].value + 1)] + d[1..]
    else [d[0]] + AddOne(d[1..], k)
  }

  /** After `totals[k] += x` the total under k has grown by x (from 0.0
      when k was new), and every other key's total is what it was. */
  lemma AddRealLookup(d: seq<Entry<real>>, k: string, x: real, j: string)
    ensures Lookup(AddReal(d, k, x), j) ==
      if j != k then Lookup(d, j)
      else Some(if k in Keys(d) then Lookup(d, k).value + x else x)
  {
    if j == k {
      AddRealLookupSame(d, k, x);
    } else {
      AddRealLookupOther(d, k, x, j);
    }
  }

  lemma {:induction false} AddRealLookupSame(d: seq<Entry<real>>, k: string, x: real)
    ensures Lookup(AddReal(d, k, x), k) == Some(if Lookup(d, k).Some? then Lookup(d, k).value + x else x)
    decreases |d|, 1
  {
    if d == [] {
      assert AddReal(d, k, x) == [Entry(k, x)];
    } else if d[0].key == k {
      LookupCons(Entry(k, d[0].value + x), d[1..], k);
    } else {
      AddRealLookupSkip(d, k, x);
    }
  }

  /** The recursive case of AddRealLookupSame: the first key is another one. */
  lemma AddRealLookupSkip(d: seq<Entry<real>>, k: string, x: real)
    requires d != [] && d[0].key != k
    ensures Lookup(AddReal(d, k, x), k) == Some(if Lookup(d, k).Some? then Lookup(d, k).value + x else x)
    decreases |d|, 0
  {
    var rest := AddReal(d[1..], k, x);
    assert AddReal(d, k, x) == [d[0]] + rest;
    assert Lookup(d, k) == Lookup(d[1..], k);
    AddRealLookupSame(d[1..], k, x);
    LookupCons(d[0], rest, k);
  }

  lemma {:induction false} AddRealLookupOther(d: seq<Entry<real>>, k: string, x: real, j: string)
    requires j != k
    ensures Lookup(AddReal(d, k, x), j) == Lookup(d, j)
  {
    if d == [] {
      assert AddReal(d, k, x) == [Entry(k, x)];
    } else if d[0].key == k {
      LookupCons(Entry(k, d[0].value + x), d[1..], j);
    } else {
      AddRealLookupOther(d[1..], k, x, j);
      LookupCons(d[0], AddReal(d[1..], k, x), j);
    }
  }

  /** After `counts[k] += 1` the count under k has grown by one (from 0
      when k was new), and every other key's count is what it was. */
  lemma AddOneLookup(d: seq<Entry<nat>>, k: string, j: string)
    ensures Lookup(AddOne(d, k), j) ==
      if j != k then Lookup(d, j)
      else Some(if k in Keys(d) then Lookup(d, k).value + 1 else 1)
  {
    if j == k {
      AddOneLookupSame(d, k);
    } else {
      AddOneLookupOther(d, k, j);
    }
  }

  lemma {:induction false} AddOneLookupSame(d: seq<Entry<nat>>, k: string)
    ensures Lookup(AddOne(d, k), k) == Some(if Lookup(d, k).Some? then Lookup(d, k).value + 1 else 1)
  {
    if d == [] {
      assert AddOne(d, k) == [Entry(k, 1)];
    } else if d[0].key == k {
      LookupCons(Entry(k, d[0].value + 1), d[1..], k);
    } else {
      assert AddOne(d, k) == [d[0]] + AddOne(d[1..], k);
      assert Lookup(d, k) == Lookup(d[1..], k);
      AddOneLookupSame(d[1..], k);
      LookupCons(d[0], AddOne(d[1..], k), k);
    }
  }

  lemma {:induction false} AddOneLookupOther(d: seq<Entry<nat>>, k: string, j: string)
    requires j != k
    ensures Lookup(AddOne(d, k), j) == Lookup(d, j)
  {
    if d == [] {
      assert AddOne(d, k) == [Entry(k, 1)];
    } else if d[0].key == k {
      LookupCons(Entry(k, d[0].value + 1), d[1..], j);
    } else {
      AddOneLookupOther(d[1..], k, j);
      LookupCons(d[0], AddOne(d[1..], k), j);
    }
  }

  /** Looking up in a dictionary given as its first entry and the rest. */
  lemma LookupCons<V>(e: Entry<V>, rest: seq<Entry<V>>, k: string)
    ensures Lookup([e] + rest, k) == if e.key == k then Some(e.value) else Lookup(rest, k)
  {
    assert ([e] + rest)[1..] == rest;
  }

  /** The keys of a non-empty dictionary: its first key, then the others. */
  lemma KeysCons<V>(d: seq<Entry<V>>)
    requires d != []
    ensures Keys(d) == [d[0].key] + Keys(d[1..])
  {
  }

  function SumValues(d: seq<Entry<real>>): real
  {
    if d == [] then 0.0 else d[0].value + SumValues(d[1..])
  }

  function SumCounts(d: seq<Entry<nat>>): nat
  {
    if d == [] then 0 else d[0].value + SumCounts(d[1..])
  }

  /** The grouping the `prepare_*_prompt_data` loop has built after the
      given products. */
  function Grouped(products: seq<Product>, key: Key): seq<Entry<seq<Product>>>
  {
    if products == [] then []
    else
      var last := products[|products| - 1];
      AppendTo(Grouped(products[..|products| - 1], key), KeyOf(last, key), last)
  }

  /** The spending totals a `compute_*` loop has built after the given
      products: only purchased products contribute. */
  function Spending(products: seq<Product>, key: Key): seq<Entry<real>>
  {
    if products == [] then []
    else
      var last := products[|products| - 1];
      var before := Spending(products[..|products| - 1], key);
      if last.productPurchased then AddReal(before, KeyOf(last, key), last.productPrice) else before
  }

  function PurchaseCounts(products: seq<Product>): seq<Entry<nat>>
  {
    if products == [] then []
    else
      var last := products[|products| - 1];
      var before := PurchaseCounts(products[..|products| - 1]);
      if last.productPurchased then AddOne(before, last.productCategory) else before
  }

  /** The products with a given key, in input order. */
  function WithKey(products: seq<Product>, key: Key, k: string): (r: seq<Product>)
    ensures |r| <= |products|
    ensures forall p :: p in r <==> p in products && KeyOf(p, key) == k
  {
    if products == [] then []
    else
      var last := products[|products| - 1];
      var before := WithKey(products[..|products| - 1], key, k);
      if KeyOf(last, key) == k then before + [last] else before
  }

  /** The purchased products, in input order. */
  function Purchased(products: seq<Product>): (r: seq<Product>)
    ensures |r| <= |products|
    ensures forall p :: p in r <==> p in products && p.productPurchased
  {
    if products == [] then []
    else
      var last := products[|products| - 1];
      var before := Purchased(products[..|products| - 1]);
      if last.productPurchased then before + [last] else before
  }

  /** The filter distributes over concatenation, so it keeps input order. */
  lemma {:induction false} WithKeyAppend(a: seq<Product>, b: seq<Product>, key: Key, k: string)
    ensures WithKey(a + b, key, k) == WithKey(a, key, k) + WithKey(b, key, k)
    decreases |b|, 1
  {
    if b == [] {
      assert a + b == a;
    } else {
      var init, last := b[..|b| - 1], b[|b| - 1];
      assert b == init + [last];
      WithKeyAppendSnoc(a, init, last, key, k);
    }
  }

  /** The step of `WithKeyAppend`: the second part ends in one more product. */
  lemma {:induction false} WithKeyAppendSnoc(a: seq<Product>, init: seq<Product>, last: Product, key: Key, k: string)
    ensures WithKey(a + (init + [last]), key, k) == WithKey(a, key, k) + WithKey(init + [last], key, k)
    decreases |init| + 1, 0
  {
    assert a + (init + [last]) == (a + init) + [last];
    WithKeyAppend(a, init, key, k);
    WithKeySnoc(a + init, last, key, k);
    WithKeySnoc(init, last, key, k);
  }

  /** One product more at the end extends the filter by that product, or not at all. */
  lemma WithKeySnoc(s: seq<Product>, p: Product, key: Key, k: string)
    ensures WithKey(s + [p], key, k) == if KeyOf(p, key) == k then WithKey(s, key, k) + [p] else WithKey(s, key, k)
  {
    assert (s + [p])[..|s + [p]| - 1] == s;
  }

  /** The purchase filter distributes over concatenation, so it keeps input order. */
  lemma {:induction false} PurchasedAppend(a: seq<Product>, b: seq<Product>)
    ensures Purchased(a + b) == Purchased(a) + Purchased(b)
  {
    if b == [] {
      assert a + b == a;
    } else {
      var init := b[..|b| - 1];
      var last := b[|b| - 1];
      PurchasedAppend(a, init);
      assert (a + b)[..|a + b| - 1] == a + init;
      assert (a + b)[|a + b| - 1] == last;
      if last.productPurchased {
        calc {
          Purchased(a + b);
          Purchased(a + init) + [last];
          Purchased(a) + (Purchased(init) + [last]);
          Purchased(a) + Purchased(b);
        }
      } else {
        assert Purchased(a + b) == Purchased(a + init);
        assert Purchased(b) == Purchased(init);
      }
    }
  }

  function TotalPrice(products: seq<Product>): real
  {
    if products == [] then 0.0 else TotalPrice(products[..|products| - 1]) + products[|products| - 1].productPrice
  }

  /** A key has a group exactly when some product carries it. */
  lemma {:induction false} GroupedKeys(products: seq<Product>, key: Key)
    ensures forall k :: k in Keys(Grouped(products, key)) <==> exists p :: p in products && KeyOf(p, key) == k
  {
    if products != [] {
      var init := products[..|products| - 1];
      var last := products[|products| - 1];
      GroupedKeys(init, key);
      assert products == init + [last];
      var before := Grouped(init, key);
      var after := Grouped(products, key);
      forall k ensures k in Keys(after) <==> exists p :: p in products && KeyOf(p, key) == k {
        if k in Keys(after) && k != KeyOf(last, key) {
          assert k in Keys(before);
          var p :| p in init && KeyOf(p, key) == k;
          assert p in products;
        } else if k in Keys(after) {
          assert last in products;
        } else if k != KeyOf(last, key) {
          assert k !in Keys(before);
          forall p | p in products ensures KeyOf(p, key) != k {
            if p != last {
              assert p in init;
            }
          }
        }
      }
    }
  }

  /** The grouping never holds a key twice. */
  lemma {:induction false} GroupedDistinct(products: seq<Product>, key: Key)
    ensures DistinctKeys(Grouped(products, key))
  {
    if products != [] {
      var init := products[..|products| - 1];
      GroupedDistinct(init, key);
      var before := Keys(Grouped(init, key));
      var k := KeyOf(products[|products| - 1], key);
      if k !in before {
        var after := before + [k];
        forall i, j | 0 <= i < j < |after| ensures after[i] != after[j] {
          if j == |before| {
            assert after[i] == before[i];
          }
        }
      }
    }
  }

  /** The group of each key holds exactly the products with that key, in
      input order, and is never empty. */
  lemma {:induction false} GroupedLookup(products: seq<Product>, key: Key)
    ensures forall k :: k in Keys(Grouped(products, key)) ==>
      Lookup(Grouped(products, key), k) == Some(WithKey(products, key, k)) && WithKey(products, key, k) != []
  {
    if products != [] {
      var init := products[..|products| - 1];
      var last := products[|products| - 1];
      assert products == init + [last];
      GroupedLookup(init, key);
      GroupedKeys(init, key);
      forall k | k in Keys(Grouped(products, key))
        ensures Lookup(Grouped(products, key), k) == Some(WithKey(products, key, k)) && WithKey(products, key, k) != []
      {
        if k !in Keys(Grouped(init, key)) {
          WithKeyAbsent(init, key, k);
        }
        GroupedLookupStep(init, last, key, k);
      }
    }
  }

  lemma WithKeyAbsent(products: seq<Product>, key: Key, k: string)
    requires forall p :: p in products ==> KeyOf(p, key) != k
    ensures WithKey(products, key, k) == []
  {
  }

  /** One product more: the step of GroupedLookup for a single key. */
  lemma GroupedLookupStep(init: seq<Product>, last: Product, key: Key, k: string)
    requires k in Keys(Grouped(init, key)) ==>
      Lookup(Grouped(init, key), k) == Some(WithKey(init, key, k)) && WithKey(init, key, k) != []
    requires k !in Keys(Grouped(init, key)) ==> WithKey(init, key, k) == []
    requires k in Keys(Grouped(init + [last], key))
    ensures Lookup(Grouped(init + [last], key), k) == Some(WithKey(init + [last], key, k))
    ensures WithKey(init + [last], key, k) != []
  {
    var products := init + [last];
    assert products[..|products| - 1] == init;
    var before := Grouped(init, key);
    var after := AppendTo(before, KeyOf(last, key), last);
    assert Grouped(products, key) == after;
    AppendToLookup(before, KeyOf(last, key), last, k);
    if k == KeyOf(last, key) {
      assert WithKey(products, key, k) == WithKey(init, key, k) + [last];
      if k !in Keys(before) {
        assert WithKey(init, key, k) + [last] == [last];
      }
    } else {
      assert WithKey(products, key, k) == WithKey(init, key, k);
      assert Lookup(after, k) == Lookup(before, k);
    }
  }

  /** `prepare_category_prompt_data` / `prepare_brand_prompt_data`: one pass
      that appends every product to the group of its key. */
  method PreparePromptData(products: seq<Product>, key: Key) returns (groups: seq<Entry<seq<Product>>>)
    ensures groups == Grouped(products, key)
    ensures DistinctKeys(groups)
    ensures forall k :: k in Keys(groups) ==> Lookup(groups, k) == Some(WithKey(products, key, k))
  {
    groups := [];
    for i := 0 to |products|
      invariant groups == Grouped(products[..i], key)
    {
      assert products[..i + 1][..i] == products[..i];
      groups := AppendTo(groups, KeyOf(products[i], key), products[i]);
    }
    assert products[..|products|] == products;
    GroupedDistinct(products, key);
    GroupedLookup(products, key);
  }

  method PrepareCategoryPromptData(products: seq<Product>) returns (groups: seq<Entry<seq<Product>>>)
    ensures groups == Grouped(products, ByCategory)
    ensures forall k :: k in Keys(groups) ==>
      Lookup(groups, k).Some? && Lookup(groups, k).value != [] &&
      forall p :: p in Lookup(groups, k).value ==> p.productCategory == k
  {
    groups := PreparePromptData(products, ByCategory);
    GroupedLookup(products, ByCategory);
  }

  method PrepareBrandPromptData(products: seq<Product>) returns (groups: seq<Entry<seq<Product>>>)
    ensures groups == Grouped(products, ByBrand)
    ensures forall k :: k in Keys(groups) ==>
      Lookup(groups, k).Some? && Lookup(groups, k).value != [] &&
      forall p :: p in Lookup(groups, k).value ==> p.productBrand == k
  {
    groups := PreparePromptData(products, ByBrand);
    GroupedLookup(products, ByBrand);
  }

  /** The spending totals add up to the price of the purchased products. */
  lemma {:induction false} SpendingSum(products: seq<Product>, key: Key)
    ensures SumValues(Spending(products, key)) == TotalPrice(Purchased(products))
  {
    if products != [] {
      var init := products[..|products| - 1];
      SpendingSum(init, key);
      if products[|products| - 1].productPurchased {
        assert Purchased(products)[..|Purchased(products)| - 1] == Purchased(init);
      }
    }
  }

  /** A key has a total exactly when some purchased product carries it. */
  lemma {:induction false} SpendingKeys(products: seq<Product>, key: Key)
    ensures forall k :: k in Keys(Spending(products, key)) <==>
      exists p :: p in products && p.productPurchased && KeyOf(p, key) == k
  {
    if products != [] {
      var init := products[..|products| - 1];
      var last := products[|products| - 1];
      SpendingKeys(init, key);
      assert products == init + [last];
      var before := Spending(init, key);
      var after := Spending(products, key);
      forall k ensures k in Keys(after) <==> exists p :: p in products && p.productPurchased && KeyOf(p, key) == k {
        if k in Keys(after) && !(last.productPurchased && k == KeyOf(last, key)) {
          assert k in Keys(before);
          var p :| p in init && p.productPurchased && KeyOf(p, key) == k;
          assert p in products;
        } else if k in Keys(after) {
          assert last in products;
        } else {
          assert k !in Keys(before);
          forall p | p in products && p.productPurchased ensures KeyOf(p, key) != k {
            if p != last {
              assert p in init;
            }
          }
        }
      }
    }
  }

  /** The total under each key is the price of the purchased products that
      carry it. */
  lemma {:induction false} SpendingLookup(products: seq<Product>, key: Key)
    ensures forall k :: k in Keys(Spending(products, key)) ==>
      Lookup(Spending(products, key), k) == Some(TotalPrice(WithKey(Purchased(products), key, k)))
  {
    if products != [] {
      var init := products[..|products| - 1];
      var last := products[|products| - 1];
      assert products == init + [last];
      SpendingLookup(init, key);
      SpendingKeys(init, key);
      forall k | k in Keys(Spending(init + [last], key))
        ensures Lookup(Spending(init + [last], key), k) == Some(TotalPrice(WithKey(Purchased(init + [last]), key, k)))
      {
        SpendingLookupStep(init, last, key, k);
      }
    }
  }

  /** One product more: the step of SpendingLookup for a single key. */
  lemma SpendingLookupStep(init: seq<Product>, last: Product, key: Key, k: string)
    requires k in Keys(Spending(init, key)) ==>
      Lookup(Spending(init, key), k) == Some(TotalPrice(WithKey(Purchased(init), key, k)))
    requires k !in Keys(Spending(init, key)) ==> forall p :: p in init && p.productPurchased ==> KeyOf(p, key) != k
    requires k in Keys(Spending(init + [last], key))
    ensures Lookup(Spending(init + [last], key), k) == Some(TotalPrice(WithKey(Purchased(init + [last]), key, k)))
  {
    var before := Spending(init, key);
    var after := Spending(init + [last], key);
    var bought := Purchased(init);
    var w := WithKey(bought, key, k);
    Snoc(init, last, key, k);
    if !last.productPurchased {
      assert after == before && Purchased(init + [last]) == bought;
    } else {
      assert after == AddReal(before, KeyOf(last, key), last.productPrice);
      assert Purchased(init + [last]) == bought + [last];
      if KeyOf(last, key) == k {
        assert WithKey(bought + [last], key, k) == w + [last];
        if k !in Keys(before) {
          WithKeyAbsent(bought, key, k);
        }
        AddPriceLookup(before, w, last, k);
      } else {
        AddRealLookup(before, KeyOf(last, key), last.productPrice, k);
        assert WithKey(bought + [last], key, k) == w;
      }
    }
  }

  /** Adding a purchased product's price to the total of its own key. */
  lemma AddPriceLookup(before: seq<Entry<real>>, w: seq<Product>, last: Product, k: string)
    requires k in Keys(before) ==> Lookup(before, k) == Some(TotalPrice(w))
    requires k !in Keys(before) ==> w == []
    ensures Lookup(AddReal(before, k, last.productPrice), k) == Some(TotalPrice(w + [last]))
  {
    AddRealLookup(before, k, last.productPrice, k);
    TotalPriceSnoc(w, last);
  }

  /** What one product more does to the specification functions. */
  lemma Snoc(init: seq<Product>, last: Product, key: Key, k: string)
    ensures Spending(init + [last], key) ==
      if last.productPurchased then AddReal(Spending(init, key), KeyOf(last, key), last.productPrice) else Spending(init, key)
    ensures PurchaseCounts(init + [last]) ==
      if last.productPurchased then AddOne(PurchaseCounts(init), last.productCategory) else PurchaseCounts(init)
    ensures Purchased(init + [last]) == if last.productPurchased then Purchased(init) + [last] else Purchased(init)
    ensures WithKey(Purchased(init) + [last], key, k) ==
      if KeyOf(last, key) == k then WithKey(Purchased(init), key, k) + [last] else WithKey(Purchased(init), key, k)
  {
    var products := init + [last];
    assert products[..|products| - 1] == init;
    var bought := Purchased(init);
    assert (bought + [last])[..|bought|] == bought;
  }

  lemma TotalPriceSnoc(products: seq<Product>, last: Product)
    ensures TotalPrice(products + [last]) == TotalPrice(products) + last.productPrice
  {
    assert (products + [last])[..|products|] == products;
  }

  /** The `compute_total_spending_by_*` and `compute_spending_by_ecommerce_site`
      loop: add the price of each purchased product to its key's total. */
  method ComputeSpending(products: seq<Product>, key: Key) returns (totals: seq<Entry<real>>)
    ensures totals == Spending(products, key)
    ensures SumValues(totals) == TotalPrice(Purchased(products))
    ensures forall k :: k in Keys(totals) <==> exists p :: p in products && p.productPurchased && KeyOf(p, key) == k
    ensures forall k :: k in Keys(totals) ==> Lookup(totals, k) == Some(TotalPrice(WithKey(Purchased(products), key, k)))
  {
    totals := [];
    for i := 0 to |products|
      invariant totals == Spending(products[..i], key)
    {
      assert products[..i + 1][..i] == products[..i];
      if products[i].productPurchased {
        totals := AddReal(totals, KeyOf(products[i], key), products[i].productPrice);
      }
    }
    assert products[..|products|] == products;
    SpendingSum(products, key);
    SpendingKeys(products, key);
    SpendingLookup(products, key);
  }

  method ComputeTotalSpendingByCategory(products: seq<Product>) returns (totals: seq<Entry<real>>)
    ensures SumValues(totals) == TotalPrice(Purchased(products))
    ensures forall k :: k in Keys(totals) <==> exists p :: p in products && p.productPurchased && p.productCategory == k
    ensures forall k :: k in Keys(totals) ==> Lookup(totals, k) == Some(TotalPrice(WithKey(Purchased(products), ByCategory, k)))
  {
    totals := ComputeSpending(products, ByCategory);
  }

  method ComputeTotalSpendingByBrand(products: seq<Product>) returns (totals: seq<Entry<real>>)
    ensures SumValues(totals) == TotalPrice(Purchased(products))
    ensures forall k :: k in Keys(totals) <==> exists p :: p in products && p.productPurchased && p.productBrand == k
    ensures forall k :: k in Keys(totals) ==> Lookup(totals, k) == Some(TotalPrice(WithKey(Purchased(products), ByBrand, k)))
  {
    totals := ComputeSpending(products, ByBrand);
  }

  method ComputeSpendingByEcommerceSite(products: seq<Product>) returns (totals: seq<Entry<real>>)
    ensures SumValues(totals) == TotalPrice(Purchased(products))
    ensures forall k :: k in Keys(totals) <==> exists p :: p in products && p.productPurchased && p.ecommerceSite == k
    ensures forall k :: k in Keys(totals) ==> Lookup(totals, k) == Some(TotalPrice(WithKey(Purchased(products), BySite, k)))
  {
    totals := ComputeSpending(products, BySite);
  }

  lemma {:induction false} PurchaseCountProperties(products: seq<Product>)
    ensures SumCounts(PurchaseCounts(products)) == |Purchased(products)|
    ensures forall k :: k in Keys(PurchaseCounts(products)) <==>
      exists p :: p in products && p.productPurchased && p.productCategory == k
  {
    if products != [] {
      var init := products[..|products| - 1];
      var last := products[|products| - 1];
      PurchaseCountProperties(init);
      assert products == init + [last];
      var before := PurchaseCounts(init);
      var after := PurchaseCounts(products);
      forall k ensures k in Keys(after) <==> exists p :: p in products && p.productPurchased && p.productCategory == k {
        if k in Keys(after) && !(last.productPurchased && k == last.productCategory) {
          assert k in Keys(before);
          var p :| p in init && p.productPurchased && p.productCategory == k;
          assert p in products;
        }
      }
    }
  }

  /** The count under each category is the number of purchased products
      in it. */
  lemma {:induction false} PurchaseCountsLookup(products: seq<Product>)
    ensures forall k :: k in Keys(PurchaseCounts(products)) ==>
      Lookup(PurchaseCounts(products), k) == Some(|WithKey(Purchased(products), ByCategory, k)|)
  {
    if products != [] {
      var init := products[..|products| - 1];
      var last := products[|products| - 1];
      assert products == init + [last];
      PurchaseCountsLookup(init);
      PurchaseCountProperties(init);
      forall k | k in Keys(PurchaseCounts(init + [last]))
        ensures Lookup(PurchaseCounts(init + [last]), k) == Some(|WithKey(Purchased(init + [last]), ByCategory, k)|)
      {
        PurchaseCountsLookupStep(init, last, k);
      }
    }
  }

  /** One product more: the step of PurchaseCountsLookup for a single category. */
  lemma PurchaseCountsLookupStep(init: seq<Product>, last: Product, k: string)
    requires k in Keys(PurchaseCounts(init)) ==>
      Lookup(PurchaseCounts(init), k) == Some(|WithKey(Purchased(init), ByCategory, k)|)
    requires k !in Keys(PurchaseCounts(init)) ==> forall p :: p in init && p.productPurchased ==> p.productCategory != k
    requires k in Keys(PurchaseCounts(init + [last]))
    ensures Lookup(PurchaseCounts(init + [last]), k) == Some(|WithKey(Purchased(init + [last]), ByCategory, k)|)
  {
    var before := PurchaseCounts(init);
    var after := PurchaseCounts(init + [last]);
    var bought := Purchased(init);
    var w := WithKey(bought, ByCategory, k);
    Snoc(init, last, ByCategory, k);
    if !last.productPurchased {
      assert after == before && Purchased(init + [last]) == bought;
    } else {
      assert after == AddOne(before, last.productCategory);
      assert Purchased(init + [last]) == bought + [last];
      if last.productCategory == k {
        assert WithKey(bought + [last], ByCategory, k) == w + [last];
        if k !in Keys(before) {
          WithKeyAbsent(bought, ByCategory, k);
        }
        AddCountLookup(before, w, last, k);
      } else {
        AddOneLookup(before, last.productCategory, k);
        assert WithKey(bought + [last], ByCategory, k) == w;
      }
    }
  }

  /** Counting a purchased product under its own category. */
  lemma AddCountLookup(before: seq<Entry<nat>>, w: seq<Product>, last: Product, k: string)
    requires k in Keys(before) ==> Lookup(before, k) == Some(|w|)
    requires k !in Keys(before) ==> w == []
    ensures Lookup(AddOne(before, k), k) == Some(|w + [last]|)
  {
    AddOneLookup(before, k, k);
  }

  /** `compute_number_of_purchases_by_category`: the counts add up to the
      number of purchased products. */
  method ComputeNumberOfPurchasesByCategory(products: seq<Product>) returns (counts: seq<Entry<nat>>)
    ensures counts == PurchaseCounts(products)
    ensures SumCounts(counts) == |Purchased(products)|
    ensures forall k :: k in Keys(counts) <==> exists p :: p in products && p.productPurchased && p.productCategory == k
    ensures forall k :: k in Keys(counts) ==> Lookup(counts, k) == Some(|WithKey(Purchased(products), ByCategory, k)|)
  {
    counts := [];
    for i := 0 to |products|
      invariant counts == PurchaseCounts(products[..i])
    {
      assert products[..i + 1][..i] == products[..i];
      if products[i].productPurchased {
        counts := AddOne(counts, products[i].productCategory);
      }
    }
    assert products[..|products|] == products;
    PurchaseCountProperties(products);
    PurchaseCountsLookup(products);
  }

  /** `compute_average_spending_per_purchase`: despite its name, the list of
      the purchased products' prices in input order, not an average. */
  function ComputeAverageSpendingPerPurchase(products: seq<Product>): (prices: seq<real>)
    ensures |prices| == |Purchased(products)|
    ensures forall i :: 0 <= i < |prices| ==> prices[i] == Purchased(products)[i].productPrice
  {
    if products == [] then []
    else
      var last := products[|products| - 1];
      var before := ComputeAverageSpendingPerPurchase(products[..|products| - 1]);
      if last.productPurchased then before + [last.productPrice] else before
  }

  function SumPrices(prices: seq<real>): real
  {
    if prices == [] then 0.0 else SumPrices(prices[..|prices| - 1]) + prices[|prices| - 1]
  }

  /** The price list and the per-category totals account for the same money. */
  lemma {:induction false} PriceListMatchesTotals(products: seq<Product>)
    ensures SumPrices(ComputeAverageSpendingPerPurchase(products)) == SumValues(Spending(products, ByCategory))
  {
    SpendingSum(products, ByCategory);
    PriceListSum(products);
  }

  lemma {:induction false} PriceListSum(products: seq<Product>)
    ensures SumPrices(ComputeAverageSpendingPerPurchase(products)) == TotalPrice(Purchased(products))
  {
    if products != [] {
      var init := products[..|products| - 1];
      PriceListSum(init);
      var last := products[|products| - 1];
      var before := ComputeAverageSpendingPerPurchase(init);
      if last.productPurchased {
        assert (before + [last.productPrice])[..|before|] == before;
        assert Purchased(products)[..|Purchased(products)| - 1] == Purchased(init);
      }
    }
  }

  /** Every product `fetch_user_data` returns is purchased, so every stored
      event's price counts towards the spending totals. */
  lemma {:induction false} FetchedProductsAllPurchased(products: seq<Product>)
    requires forall i :: 0 <= i < |products| ==> products[i].productPurchased
    ensures Purchased(products) == products
  {
    if products != [] {
      var init := products[..|products| - 1];
      var last := products[|products| - 1];
      assert forall i :: 0 <= i < |init| ==> init[i].productPurchased by {
        forall i | 0 <= i < |init| ensures init[i].productPurchased {
          assert init[i] == products[i];
        }
      }
      FetchedProductsAllPurchased(init);
      assert last.productPurchased;
      assert products == init + [last];
    }
  }
}

=== FILE: analytics.dfy ===
/** Read-side analytics (`server/controllers/Analytics.js`; the server in
    `server/index.js` carries an identical session fold). The events of a
    session arrive as the database query returns them, sorted by timestamp;
    the query itself is not modelled. */
module Analytics {
  import opened Common

  /** The parts of a stored event the session fold reads;
      `timeSpentSeconds` is `event.userMetrics?.timeSpentSeconds`. */
  datatype SessionEvent = SessionEvent(productUrl: string, platform: string, timeSpentSeconds: Option<real>)

  datatype SessionResponse =
    | SessionNotFound
    | SessionMetrics(totalTimeSpent: real, productsViewed: nat, averageTimePerProduct: real,
                     platformsVisited: seq<string>, events: seq<SessionEvent>)

  /** The time an event contributes: its time when present and truthy. */
  function CountedTime(e: SessionEvent): real
  {
    if e.timeSpentSeconds.Some? && e.timeSpentSeconds.value != 0.0 then e.timeSpentSeconds.value else 0.0
  }

  /** Total time over a sequence of events, added in order. */
  function TotalTime(events: seq<SessionEvent>): real
  {
    if events == [] then 0.0 else TotalTime(events[..|events| - 1]) + CountedTime(events[|events| - 1])
  }

  /** The distinct product URLs of a sequence of events. */
  function Urls(events: seq<SessionEvent>): set<string>
  {
    set e | e in events :: e.productUrl
  }

  function Platforms(events: seq<SessionEvent>): (ps: seq<string>)
    ensures |ps| == |events| && forall i :: 0 <= i < |events| ==> ps[i] == events[i].platform
  {
    if events == [] then [] else Platforms(events[..|events| - 1]) + [events[|events| - 1].platform]
  }

  /** The insertion order of a JavaScript `Set` fed with `xs`: each value
      kept at its first occurrence. */
  function FirstSeen(xs: seq<string>): seq<string>
  {
    if xs == [] then []
    else
      var earlier := FirstSeen(xs[..|xs| - 1]);
      if xs[|xs| - 1] in earlier then earlier else earlier + [xs[|xs| - 1]]
  }

  /** Index of the first occurrence of `x` in `xs`. */
  function FirstIndex(xs: seq<string>, x: string): (i: nat)
    requires x in xs
    ensures i < |xs| && xs[i] == x && x !in xs[..i]
  {
    if xs[0] == x then 0 else 1 + FirstIndex(xs[1..], x)
  }

  predicate NoDuplicates(xs: seq<string>)
  {
    forall i, j :: 0 <= i < j < |xs| ==> xs[i] != xs[j]
  }

  /** FirstSeen lists every value of the input once, nothing else, in the
      order of first occurrence. */
  lemma {:induction false} FirstSeenProperties(xs: seq<string>)
    ensures NoDuplicates(FirstSeen(xs))
    ensures forall x :: x in FirstSeen(xs) <==> x in xs
    ensures forall i, j :: 0 <= i < j < |FirstSeen(xs)| ==>
      FirstIndex(xs, FirstSeen(xs)[i]) < FirstIndex(xs, FirstSeen(xs)[j])
  {
    if xs != [] {
      var init := xs[..|xs| - 1];
      var last := xs[|xs| - 1];
      FirstSeenProperties(init);
      assert xs == init + [last];
      var r := FirstSeen(xs);
      forall x | x in init ensures FirstIndex(xs, x) == FirstIndex(init, x) {
        FirstIndexPrefix(init, last, x);
      }
      if last !in init {
        assert FirstIndex(xs, last) == |init| by {
          assert xs[..|init|] == init;
          FirstIndexIsFirst(xs, last, |init|);
        }
        forall i | 0 <= i < |r| - 1 ensures FirstIndex(xs, r[i]) < FirstIndex(xs, last) {
          assert r[i] in FirstSeen(init);
        }
      }
    }
  }

  lemma {:induction false} FirstIndexPrefix(init: seq<string>, last: string, x: string)
    requires x in init
    ensures x in init + [last] && FirstIndex(init + [last], x) == FirstIndex(init, x)
  {
    var xs := init + [last];
    if init[0] != x {
      assert xs[1..] == init[1..] + [last];
      FirstIndexPrefix(init[1..], last, x);
    }
  }

  lemma FirstIndexIsFirst(xs: seq<string>, x: string, k: nat)
    requires k < |xs| && xs[k] == x && x !in xs[..k]
    ensures FirstIndex(xs, x) == k
  {
  }

  /** The number of distinct URLs is between 1 and the number of events. */
  lemma {:induction false} UrlCountBounds(events: seq<SessionEvent>)
    ensures |Urls(events)| <= |events|
    ensures events != [] ==> |Urls(events)| >= 1
  {
    if events != [] {
      var init := events[..|events| - 1];
      var last := events[|events| - 1];
      UrlCountBounds(init);
      assert events == init + [last];
      assert Urls(events) == Urls(init) + {last.productUrl};
      assert last.productUrl in Urls(events);
    }
  }

  /** How each of the three accumulations grows by one event. */
  lemma FoldStep(events: seq<SessionEvent>, i: nat)
    requires i < |events|
    ensures TotalTime(events[..i + 1]) == TotalTime(events[..i]) + CountedTime(events[i])
    ensures Urls(events[..i + 1]) == Urls(events[..i]) + {events[i].productUrl}
    ensures var ps := Platforms(events[..i + 1]);
      ps == Platforms(events[..i]) + [events[i].platform] &&
      FirstSeen(ps) == if events[i].platform in FirstSeen(Platforms(events[..i]))
                       then FirstSeen(Platforms(events[..i]))
                       else FirstSeen(Platforms(events[..i])) + [events[i].platform]
  {
    var pre := events[..i + 1];
    assert pre[..i] == events[..i];
    assert pre == events[..i] + [events[i]];
    var ps := Platforms(pre);
    assert ps[..i] == Platforms(events[..i]);
  }

  /** `getSessionAnalytics`: 404 for a session without events; otherwise a
      single pass adds up the truthy times and fills the URL and platform
      sets, and the average divides the total by the number of URLs. */
  method GetSessionAnalytics(sessionEvents: seq<SessionEvent>) returns (r: SessionResponse)
    ensures r.SessionNotFound? <==> sessionEvents == []
    ensures r.SessionMetrics? ==>
      && r.totalTimeSpent == TotalTime(sessionEvents)
      && r.productsViewed == |Urls(sessionEvents)|
      && 1 <= r.productsViewed <= |sessionEvents|
      && r.averageTimePerProduct == r.totalTimeSpent / (r.productsViewed as real)
      && r.platformsVisited == FirstSeen(Platforms(sessionEvents))
      && r.events == sessionEvents
  {
    if |sessionEvents| == 0 {
      return SessionNotFound;
    }
    var totalTimeSpent, productsViewed, platformsVisited := Accumulate(sessionEvents);
    UrlCountBounds(sessionEvents);
    var count := |productsViewed|;
    r := SessionMetrics(totalTimeSpent, count, totalTimeSpent / (count as real), platformsVisited, sessionEvents);
  }

  /** The single pass of `getSessionAnalytics` over the events. */
  method Accumulate(sessionEvents: seq<SessionEvent>)
    returns (totalTimeSpent: real, productsViewed: set<string>, platformsVisited: seq<string>)
    ensures totalTimeSpent == TotalTime(sessionEvents)
    ensures productsViewed == Urls(sessionEvents)
    ensures platformsVisited == FirstSeen(Platforms(sessionEvents))
  {
    totalTimeSpent := 0.0;
    productsViewed := {};
    platformsVisited := [];
    for i := 0 to |sessionEvents|
      invariant totalTimeSpent == TotalTime(sessionEvents[..i])
      invariant productsViewed == Urls(sessionEvents[..i])
      invariant platformsVisited == FirstSeen(Platforms(sessionEvents[..i]))
    {
      var event := sessionEvents[i];
      FoldStep(sessionEvents, i);
      if event.timeSpentSeconds.Some? && event.timeSpentSeconds.value != 0.0 {
        totalTimeSpent := totalTimeSpent + event.timeSpentSeconds.value;
      }
      productsViewed := productsViewed + {event.productUrl};
      if event.platform !in platformsVisited {
        platformsVisited := platformsVisited + [event.platform];
      }
    }
    assert sessionEvents[..|sessionEvents|] == sessionEvents;
  }

  /** The example of two events on amazon and ebay (and a repeat visit to
      amazon) reports the platforms amazon, ebay in that order. */
  lemma PlatformsExample()
    ensures FirstSeen(["amazon", "ebay", "amazon"]) == ["amazon", "ebay"]
  {
    assert ["amazon", "ebay", "amazon"][..2] == ["amazon", "ebay"];
    assert ["amazon", "ebay"][..1] == ["amazon"];
  }

  /** The sample data of `getCategories`. */
  datatype ProductDescription = ProductDescription(productName: string, description: string)
  datatype CategoryDescription = CategoryDescription(categoryName: string, products: seq<ProductDescription>)
  datatype CategoryCard = CategoryCard(title: string, products: seq<string>)

  function ProductNames(products: seq<ProductDescription>): (names: seq<string>)
    ensures |names| == |products|
    ensures forall j :: 0 <= j < |products| ==> names[j] == products[j].productName
  {
    if products == [] then [] else [products[0].productName] + ProductNames(products[1..])
  }

  /** The transform of `getCategories`: one card per category, in order,
      titled with the category name and listing its product names in order. */
  function ToCards(categories: seq<CategoryDescription>): (cards: seq<CategoryCard>)
    ensures |cards| == |categories|
    ensures forall i :: 0 <= i < |categories| ==>
      cards[i].title == categories[i].categoryName && |cards[i].products| == |categories[i].products|
    ensures forall i, j :: 0 <= i < |categories| && 0 <= j < |categories[i].products| ==>
      cards[i].products[j] == categories[i].products[j].productName
  {
    if categories == [] then []
    else [CategoryCard(categories[0].categoryName, ProductNames(categories[0].products))] + ToCards(categories[1..])
  }

  const SampleCategories: seq<CategoryDescription> := [
    CategoryDescription("Electronics", [
      ProductDescription(DjControllerName, DjControllerDescription),
      ProductDescription(CoffeeMakerName, CoffeeMakerDescription)]),
    CategoryDescription("Miscellaneous", [
      ProductDescription(WatchName, WatchDescription),
      ProductDescription(SneakersName, SneakersDescription)])
  ]

  const DjControllerName: string :=
    "Hercules DJControl Inpulse 200 MK2 — Ideal DJ Controller for Learning to Mix — Software and Tutorials Included, Black"
  const DjControllerDescription: string :=
    "The customer has shown interest in music production and DJing, trying to save money and invest in their hobby. They have a moderate budget for electronics and tend to shop on Amazon."
  const CoffeeMakerName: string :=
    "Nespresso VertuoPlus Coffee Maker and Espresso Machine by DeLonghi Black Matte"
  const CoffeeMakerDescription: string :=
    "The customer enjoys coffee and has a high willingness to spend on quality products. They have already spent money on this product and tend to shop on multiple platforms, including Target."
  const WatchName: string :=
    "Casio GA-B2100-2AJF [G-Shock GA-B2100 Series Men's Rubber Band] Watch Shipped from Japan Released in Apr 2022"
  const WatchDescription: string :=
    "The customer has shown interest in fashion and accessories, trying to save money on high-quality products. They have a moderate budget for miscellaneous items and tend to shop on multiple platforms, including Amazon."
  const SneakersName: string :=
    "NIKE AIR JORDAN 1 RETRO WHAT THE HORNETS PROMO SAMPLE PE PLAYER EXCLUSIVE US 13"
  const SneakersDescription: string :=
    "The customer is interested in sneakers and has a high willingness to spend on exclusive products. They have already spent money on this product and tend to shop on multiple platforms, including eBay."

  /** `getCategories` answers two cards, Electronics and Miscellaneous, with
      two product names each. */
  function GetCategories(): (cards: seq<CategoryCard>)
    ensures |cards| == 2
    ensures cards[0].title == "Electronics" && cards[1].title == "Miscellaneous"
    ensures |cards[0].products| == 2 && |cards[1].products| == 2
  {
    ToCards(SampleCategories)
  }
}

=== FILE: api_server.dfy ===
/** The standalone backend (`server/index.js`): its own payload check, the
    `POST /api/events` handler that merges the request headers into the
    event's metadata and saves it, and the session analytics route. The
    origin rule is the one in module Cors and the session fold is the one
    in module Analytics; this module adds the routes around them. The
    collection is an in-memory log; whether the store throws is a
    parameter. */
module ApiServer {
  import opened Common
  import Validation
  import Analytics

  /** The body fields this server's `validateEventPayload` reads and reports. */
  const RequiredEventFields: seq<string> := ["sessionId", "platform", "productUrl", "productDetails"]

  /** `validateEventPayload`: 400 with the fixed field list when any of the
      four fields is falsy, otherwise `next`. */
  function ValidateEventPayload(body: map<string, Value>): (v: Validation.Verdict)
    ensures v.Next? <==> forall f :: f in RequiredEventFields ==> Truthy(Get(body, f))
    ensures v.Reject? ==> v == Validation.Reject(400, "Missing required fields", RequiredEventFields)
  {
    if !Truthy(Get(body, "sessionId")) || !Truthy(Get(body, "platform")) || !Truthy(Get(body, "productUrl"))
       || !Truthy(Get(body, "productDetails"))
    then Validation.Reject(400, "Missing required fields", RequiredEventFields)
    else Validation.Next
  }

  /** A request header as Express exposes it: its text, or undefined. */
  function HeaderValue(h: Option<string>): (v: Value)
    ensures h.Some? ==> v == Str(h.value)
    ensures h.None? ==> v == Undefined
  {
    if h.Some? then Str(h.value) else Undefined
  }

  /** `{...req.body.metadata, extensionId, tabId}`: the body's metadata
      object with the two header values written over it. A missing or null
      metadata spreads to nothing. */
  function MergeMetadata(metadata: Value, extensionId: Option<string>, tabId: Option<string>): (m: map<string, Value>)
    ensures m.Keys == (if metadata.Obj? then metadata.fields.Keys else {}) + {"extensionId", "tabId"}
    ensures m["extensionId"] == HeaderValue(extensionId) && m["tabId"] == HeaderValue(tabId)
    ensures metadata.Obj? ==>
      forall k :: k in metadata.fields && k != "extensionId" && k != "tabId" ==> m[k] == metadata.fields[k]
  {
    var base := if metadata.Obj? then metadata.fields else map[];
    base["extensionId" := HeaderValue(extensionId)]["tabId" := HeaderValue(tabId)]
  }

  /** `{...req.body, metadata: ...}`: the document handed to the model
      constructor. Every body field but `metadata` is copied unchanged. */
  function BuildRecord(body: map<string, Value>, extensionId: Option<string>, tabId: Option<string>)
    : (r: map<string, Value>)
    ensures r.Keys == body.Keys + {"metadata"}
    ensures r["metadata"] == Obj(MergeMetadata(Get(body, "metadata"), extensionId, tabId))
    ensures forall k :: k in body && k != "metadata" ==> r[k] == body[k]
  {
    body["metadata" := Obj(MergeMetadata(Get(body, "metadata"), extensionId, tabId))]
  }

  /** The schema's checks at save time: `eventType` is `VIEW` or `EXIT`,
      and the required string fields hold strings that are not empty
      (Mongoose's `required` refuses the empty string). */
  predicate SchemaAccepts(record: map<string, Value>): (ok: bool)
    ensures ok <==> && "eventType" in record && record["eventType"].Str? && record["eventType"].s in {"VIEW", "EXIT"}
                    && RequiredString(record, "sessionId") && RequiredString(record, "platform")
                    && RequiredString(record, "productUrl")
  {
    && (Get(record, "eventType") == Str("VIEW") || Get(record, "eventType") == Str("EXIT"))
    && Get(record, "sessionId").Str? && Get(record, "sessionId").s != ""
    && Get(record, "platform").Str? && Get(record, "platform").s != ""
    && Get(record, "productUrl").Str? && Get(record, "productUrl").s != ""
  }

  /** A `required: true` string path: present, a string, and not empty. */
  predicate RequiredString(record: map<string, Value>, key: string)
  {
    key in record && record[key].Str? && record[key].s != ""
  }

  /** A saved product event: its id, the fields the session route reads,
      and the whole document. */
  datatype ProductEvent = ProductEvent(id: nat, sessionId: string, eventType: string, platform: string,
                                       productUrl: string, document: map<string, Value>)

  /** Why a save threw: the schema refused the document, or the store failed. */
  datatype SaveFailure = SchemaRejected | StoreFailed(message: string)

  datatype PostResponse =
    | Rejected(verdict: Validation.Verdict)
    | EventRecorded(eventId: nat)
    | EventFailed(details: Option<SaveFailure>)
  {
    function Status(): int
    {
      match this
      case Rejected(v) => if v.Reject? then v.status else 400
      case EventRecorded(_) => 200
      case EventFailed(_) => 500
    }
  }

  /** `event.userMetrics?.timeSpentSeconds`, when it is a number. */
  function TimeSpent(document: map<string, Value>): (t: Option<real>)
    ensures t.Some? <==> Prop(Get(document, "userMetrics"), "timeSpentSeconds").Number?
  {
    var v := Prop(Get(document, "userMetrics"), "timeSpentSeconds");
    if v.Number? then Some(v.n) else None
  }

  /** The session fold's view of a saved event. */
  function SessionEventOf(e: ProductEvent): (s: Analytics.SessionEvent)
    ensures s.productUrl == e.productUrl && s.platform == e.platform
  {
    Analytics.SessionEvent(e.productUrl, e.platform, TimeSpent(e.document))
  }

  /** `ProductEvent.find({sessionId})` over a log kept in save order:
      the events of one session, oldest first. */
  function SessionEvents(events: seq<ProductEvent>, sessionId: string): (r: seq<Analytics.SessionEvent>)
    ensures |r| <= |events|
    ensures r == [] <==> forall i :: 0 <= i < |events| ==> events[i].sessionId != sessionId
    ensures forall i :: 0 <= i < |events| && events[i].sessionId == sessionId ==> SessionEventOf(events[i]) in r
    ensures forall s :: s in r ==>
      exists i :: 0 <= i < |events| && events[i].sessionId == sessionId && SessionEventOf(events[i]) == s
  {
    if events == [] then []
    else
      var init := events[..|events| - 1];
      var before := SessionEvents(init, sessionId);
      var last := events[|events| - 1];
      assert forall i :: 0 <= i < |init| ==> events[i] == init[i];
      if last.sessionId == sessionId then before + [SessionEventOf(last)] else before
  }

  /** The query keeps log order: it distributes over concatenation. */
  lemma {:induction false} SessionEventsAppend(a: seq<ProductEvent>, b: seq<ProductEvent>, sessionId: string)
    ensures SessionEvents(a + b, sessionId) == SessionEvents(a, sessionId) + SessionEvents(b, sessionId)
  {
    if b == [] {
      assert a + b == a;
    } else {
      var init := b[..|b| - 1];
      SessionEventsAppend(a, init, sessionId);
      assert (a + b)[..|a + b| - 1] == a + init;
      assert (a + b)[|a + b| - 1] == b[|b| - 1];
    }
  }

  class EventLog {
    /** The saved events, in the order they were saved. */
    var events: seq<ProductEvent>
    /** The id the next saved event receives. */
    var nextId: nat

    /** Every saved event passed the schema, and ids are handed out in
        order: the i-th saved event has id i. */
    ghost predicate Valid()
      reads this
    {
      && nextId == |events|
      && forall i :: 0 <= i < |events| ==>
        events[i].id == i && (events[i].eventType == "VIEW" || events[i].eventType == "EXIT")
    }

    constructor ()
      ensures Valid() && events == [] && nextId == 0
    {
      events := [];
      nextId := 0;
    }

    /** `POST /api/events`: the payload check first; then the document is
        built with the header metadata and saved. A document the schema
        refuses, or a store failure, answers 500 with `details` only in
        development mode; nothing is saved then. */
    method PostEvent(body: map<string, Value>, extensionId: Option<string>, tabId: Option<string>,
                     storeError: Option<string>, development: bool)
      returns (resp: PostResponse)
      requires Valid()
      modifies this
      ensures Valid()
      ensures ValidateEventPayload(body).Reject? ==>
        resp == Rejected(ValidateEventPayload(body)) && events == old(events) && nextId == old(nextId)
      ensures ValidateEventPayload(body).Next? && !SchemaAccepts(BuildRecord(body, extensionId, tabId)) ==>
        && resp == EventFailed(if development then Some(SchemaRejected) else None)
        && events == old(events) && nextId == old(nextId)
      ensures ValidateEventPayload(body).Next? && SchemaAccepts(BuildRecord(body, extensionId, tabId))
              && storeError.Some? ==>
        && resp == EventFailed(if development then Some(StoreFailed(storeError.value)) else None)
        && events == old(events) && nextId == old(nextId)
      ensures ValidateEventPayload(body).Next? && SchemaAccepts(BuildRecord(body, extensionId, tabId))
              && storeError.None? ==>
        var record := BuildRecord(body, extensionId, tabId);
        && resp == EventRecorded(old(nextId))
        && events == old(events) + [ProductEvent(old(nextId), record["sessionId"].s, record["eventType"].s,
                                                 record["platform"].s, record["productUrl"].s, record)]
        && nextId == old(nextId) + 1
      ensures resp.Status() == 200 <==> resp.EventRecorded?
    {
      var verdict := ValidateEventPayload(body);
      if verdict.Reject? {
        return Rejected(verdict);
      }
      var record := BuildRecord(body, extensionId, tabId);
      if !SchemaAccepts(record) {
        return EventFailed(if development then Some(SchemaRejected) else None);
      }
      if storeError.Some? {
        return EventFailed(if development then Some(StoreFailed(storeError.value)) else None);
      }
      var event := ProductEvent(nextId, record["sessionId"].s, record["eventType"].s,
                                record["platform"].s, record["productUrl"].s, record);
      events := events + [event];
      resp := EventRecorded(nextId);
      nextId := nextId + 1;
    }

    /** `GET /api/analytics/session/:sessionId`: 404 exactly when no saved
        event belongs to the session; otherwise the shared session fold
        over that session's events. */
    method GetSessionAnalytics(sessionId: string) returns (r: Analytics.SessionResponse)
      ensures r.SessionNotFound? <==> forall i :: 0 <= i < |events| ==> events[i].sessionId != sessionId
      ensures r.SessionMetrics? ==>
        && r.events == SessionEvents(events, sessionId)
        && 1 <= r.productsViewed <= |events|
        && r.productsViewed == |Analytics.Urls(r.events)| <= |r.events|
        && r.averageTimePerProduct == r.totalTimeSpent / (r.productsViewed as real)
        && r.totalTimeSpent == Analytics.TotalTime(r.events)
        && r.platformsVisited == Analytics.FirstSeen(Analytics.Platforms(r.events))
    {
      var sessionEvents := SessionEvents(events, sessionId);
      r := Analytics.GetSessionAnalytics(sessionEvents);
    }
  }

  /** A body without `eventType` passes the payload check yet is refused
      at save time, whatever the rest of the body holds. */
  lemma MissingEventTypeFailsSave(body: map<string, Value>, extensionId: Option<string>, tabId: Option<string>)
    requires "eventType" !in body
    ensures !SchemaAccepts(BuildRecord(body, extensionId, tabId))
  {
    assert "eventType" !in BuildRecord(body, extensionId, tabId);
  }
}

=== FILE: background.dfy ===
/** The extension's background worker (event relay). It listens for messages
    from the tabs, forwards PRODUCT_VIEW and PRODUCT_EXIT messages to the
    backend's `/events` endpoint with a bounded number of attempts, and
    answers the tab with the parsed reply or with `{error: message}`.

    `fetch` is replaced by a sequence of exchanges, one per attempt, each
    holding the clock reading taken for `recordedAt` and what the network
    did. The delay between attempts is not modelled. */
module Background {
  import opened Common

  /** What the server sent back: `response.ok`, `response.status`, and the
      body as `response.json()` parses it (none when that rejects). */
  datatype Reply = Reply(ok: bool, status: int, body: Body)

  /** The outcome of `response.json()`: the parsed value, or the message of
      the error it rejects with. */
  datatype Body = Json(value: Value) | Unparsable(message: string)

  /** One call of `fetch`: a reply, or a rejected promise. */
  datatype FetchResult = Responded(reply: Reply) | NetworkError(message: string)

  /** The environment of one attempt. */
  datatype Exchange = Exchange(recordedAt: string, result: FetchResult)

  /** Why an attempt failed; every kind lands in the same `catch`. */
  datatype Failure = BadStatus(status: int) | Network(message: string) | BadBody(message: string)

  datatype Result<T> = Success(value: T) | Error(failure: Failure)

  /** The `POST` an attempt makes: its two custom headers and its body. */
  datatype Request = Request(extensionId: string, tabId: string, body: map<string, Value>)

  /** The `{error: message}` or parsed reply the listener hands back to the tab. */
  datatype ListenerReply = Forwarded(body: Value) | ErrorReply(error: string)

  /** `error.message` for each way an attempt fails. */
  function ErrorMessage(f: Failure): (m: string)
    ensures f.BadStatus? ==> StartsWith(m, "Server responded with status: ")
    ensures f.BadStatus? ==> m == "Server responded with status: " + IntToString(f.status)
    ensures !f.BadStatus? ==> m == f.message
  {
    match f
    case BadStatus(status) =>
      var prefix := "Server responded with status: ";
      var m := prefix + IntToString(status);
      assert m[..|prefix|] == prefix;
      m
    case Network(message) => message
    case BadBody(message) => message
  }

  /** The outcome of one attempt: a non-ok status fails exactly as a network
      error or an unparsable body does; only an ok, parsable reply succeeds. */
  function AttemptOutcome(r: FetchResult): (o: Result<Value>)
    ensures o.Success? <==> r.Responded? && r.reply.ok && r.reply.body.Json?
    ensures o.Success? ==> o.value == r.reply.body.value
    ensures r.Responded? && !r.reply.ok ==> o == Error(BadStatus(r.reply.status))
    ensures r.NetworkError? ==> o == Error(Network(r.message))
    ensures r.Responded? && r.reply.ok && r.reply.body.Unparsable? ==> o == Error(BadBody(r.reply.body.message))
  {
    match r
    case NetworkError(message) => Error(Network(message))
    case Responded(reply) =>
      if !reply.ok then Error(BadStatus(reply.status))
      else if reply.body.Unparsable? then Error(BadBody(reply.body.message))
      else Success(reply.body.value)
  }

  /** The posted body: the message data plus `extensionVersion` and
      `recordedAt`, which win over fields of the same name in the data. */
  function EnrichedBody(data: map<string, Value>, version: string, recordedAt: string)
    : (b: map<string, Value>)
    ensures b.Keys == data.Keys + {"extensionVersion", "recordedAt"}
    ensures b["extensionVersion"] == Str(version) && b["recordedAt"] == Str(recordedAt)
    ensures forall k :: k in data && k != "extensionVersion" && k != "recordedAt" ==> b[k] == data[k]
  {
    data["extensionVersion" := Str(version)]["recordedAt" := Str(recordedAt)]
  }

  /** The number of attempts the `attempt < MAX_RETRIES` rule allows: the
      first attempt is always made. */
  function AttemptLimit(maxRetries: int): (n: nat)
    ensures n >= 1 && n >= maxRetries
    ensures maxRetries >= 1 ==> n == maxRetries
    ensures maxRetries < 1 ==> n == 1
  {
    if maxRetries < 1 then 1 else maxRetries
  }

  /** The message types the listener forwards. */
  predicate IsForwarded(messageType: string): (b: bool)
    ensures b <==> messageType == "PRODUCT_VIEW" || messageType == "PRODUCT_EXIT"
  {
    messageType in ["PRODUCT_VIEW", "PRODUCT_EXIT"]
  }

  class ProductAnalyticsService {
    const apiBaseUrl: string
    const maxRetries: int
    const retryDelayMs: int
    /** `chrome.runtime.id` and the manifest version of the extension. */
    const extensionId: string
    const version: string

    constructor (extensionId: string, version: string)
      ensures apiBaseUrl == "http://localhost:3000/api"
      ensures maxRetries == 1 && retryDelayMs == 1000
      ensures this.extensionId == extensionId && this.version == version
    {
      apiBaseUrl := "http://localhost:3000/api";
      maxRetries := 1;
      retryDelayMs := 1000;
      this.extensionId := extensionId;
      this.version := version;
    }

    /** The request one attempt makes: the extension id and the tab id as
        headers, the enriched data as body. */
    function AttemptRequest(data: map<string, Value>, tabId: nat, recordedAt: string): (r: Request)
      ensures r.extensionId == extensionId && r.tabId == NatToString(tabId)
      ensures r.body == EnrichedBody(data, version, recordedAt)
    {
      Request(extensionId, NatToString(tabId), EnrichedBody(data, version, recordedAt))
    }

    /** `sendToServer`: attempt after attempt, each with the enriched body,
        until one succeeds or the attempt limit is reached. The first success
        is returned at once; after the last failed attempt its failure is
        returned (the rethrown error). */
    method SendToServer(data: map<string, Value>, tabId: nat, env: seq<Exchange>)
      returns (result: Result<Value>, requests: seq<Request>)
      requires |env| >= AttemptLimit(maxRetries)
      ensures 1 <= |requests| <= AttemptLimit(maxRetries)
      ensures forall i :: 0 <= i < |requests| ==>
        requests[i] == AttemptRequest(data, tabId, env[i].recordedAt)
      ensures forall i :: 0 <= i < |requests| - 1 ==> AttemptOutcome(env[i].result).Error?
      ensures result == AttemptOutcome(env[|requests| - 1].result)
      ensures result.Error? ==> |requests| == AttemptLimit(maxRetries)
    {
      var attempt := 1;
      requests := [];
      while true
        invariant 1 <= attempt <= AttemptLimit(maxRetries)
        invariant |requests| == attempt - 1
        invariant forall i :: 0 <= i < |requests| ==>
          requests[i] == AttemptRequest(data, tabId, env[i].recordedAt)
        invariant forall i :: 0 <= i < |requests| ==> AttemptOutcome(env[i].result).Error?
        decreases AttemptLimit(maxRetries) - attempt
      {
        var exchange := env[attempt - 1];
        requests := requests + [AttemptRequest(data, tabId, exchange.recordedAt)];
        var outcome := AttemptOutcome(exchange.result);
        if outcome.Success? {
          return outcome, requests;
        }
        if attempt < maxRetries {
          attempt := attempt + 1;
        } else {
          return outcome, requests;
        }
      }
    }

    /** The `onMessage` listener: PRODUCT_VIEW and PRODUCT_EXIT messages are
        forwarded and answered (`handled` is the listener's `return true`);
        every other message is ignored and causes no request. */
    method HandleMessage(messageType: string, data: map<string, Value>, tabId: nat, env: seq<Exchange>)
      returns (handled: bool, reply: Option<ListenerReply>, requests: seq<Request>)
      requires |env| >= AttemptLimit(maxRetries)
      ensures handled <==> IsForwarded(messageType)
      ensures !handled ==> reply.None? && requests == []
      ensures handled ==> 1 <= |requests| <= AttemptLimit(maxRetries) && reply.Some?
      ensures handled ==> var last := AttemptOutcome(env[|requests| - 1].result);
        reply.value == if last.Success? then Forwarded(last.value) else ErrorReply(ErrorMessage(last.failure))
    {
      if !IsForwarded(messageType) {
        return false, None, [];
      }
      var result;
      result, requests := SendToServer(data, tabId, env);
      handled := true;
      match result
      case Success(body) => reply := Some(Forwarded(body));
      case Error(failure) => reply := Some(ErrorReply(ErrorMessage(failure)));
    }
  }

  /** With the configured `MAX_RETRIES = 1` a failed first attempt is final:
      exactly one request is made and no retry follows. */
  method SingleAttemptOnFailure(extensionId: string, version: string, data: map<string, Value>,
                                tabId: nat, env: seq<Exchange>)
    returns (result: Result<Value>, requests: seq<Request>)
    requires |env| >= 1
    ensures |requests| == 1
    ensures result == AttemptOutcome(env[0].result)
  {
    var service := new ProductAnalyticsService(extensionId, version);
    result, requests := service.SendToServer(data, tabId, env);
  }
}

=== FILE: common.dfy ===
/** Shared vocabulary: an Option type, the JavaScript values that request
    bodies and parsed JSON are made of, and the handful of string operations
    (`includes`, `startsWith`, `trim`, `split`, `lower`) the rules use. */
module Common {

  datatype Option<+T> = None | Some(value: T)

  /** A JavaScript value as it appears in a request body or a parsed JSON
      document. Numbers are reals; NaN and the infinities are not represented. */
  datatype Value =
    | Undefined
    | Null
    | Bool(b: bool)
    | Number(n: real)
    | Str(s: string)
    | Arr(items: seq<Value>)
    | Obj(fields: map<string, Value>)

  /** JavaScript truthiness: `undefined`, `null`, `false`, `0` and `""` are falsy. */
  predicate Truthy(v: Value): (b: bool)
    ensures !b <==> v.Undefined? || v.Null? || v == Bool(false) || v == Number(0.0) || v == Str("")
    ensures v.Arr? || v.Obj? ==> b
  {
    match v
    case Undefined => false
    case Null => false
    case Bool(b) => b
    case Number(n) => n != 0.0
    case Str(s) => s != ""
    case Arr(_) => true
    case Obj(_) => true
  }

  /** Reading `o.key` from a plain object: a missing key reads as `undefined`. */
  function Get(fields: map<string, Value>, key: string): (v: Value)
    ensures key !in fields ==> v == Undefined
    ensures key in fields ==> v == fields[key]
  {
    if key in fields then fields[key] else Undefined
  }

  /** Reading `v.key` from any non-null value: only objects have own keys here. */
  function Prop(v: Value, key: string): (r: Value)
    ensures r != Undefined ==> v.Obj? && key in v.fields && r == v.fields[key]
  {
    if v.Obj? then Get(v.fields, key) else Undefined
  }

  predicate StartsWith(s: string, prefix: string)
  {
    |prefix| <= |s| && s[..|prefix|] == prefix
  }

  /** `s.includes(sub)`: `sub` occurs somewhere in `s`. */
  predicate Contains(s: string, sub: string)
    decreases |s|
  {
    StartsWith(s, sub) || (|s| > 0 && Contains(s[1..], sub))
  }

  /** An occurrence at any position makes `includes` hold. */
  lemma {:induction false} ContainsAt(s: string, sub: string, i: nat)
    requires i + |sub| <= |s| && s[i..i + |sub|] == sub
    ensures Contains(s, sub)
    decreases i
  {
    if i == 0 {
      assert s[..|sub|] == sub;
    } else {
      assert s[1..][i - 1..i - 1 + |sub|] == s[i..i + |sub|];
      ContainsAt(s[1..], sub, i - 1);
    }
  }

  /** When `includes` holds, there is a position where `sub` occurs. */
  lemma {:induction false} ContainsWitness(s: string, sub: string) returns (i: nat)
    requires Contains(s, sub)
    ensures i + |sub| <= |s| && s[i..i + |sub|] == sub
    decreases |s|
  {
    if StartsWith(s, sub) {
      i := 0;
    } else {
      var j := ContainsWitness(s[1..], sub);
      assert s[1..][j..j + |sub|] == s[j + 1..j + 1 + |sub|];
      i := j + 1;
    }
  }

  /** The characters String.prototype.trim removes (the ASCII ones). */
  predicate IsSpace(c: char)
  {
    c == ' ' || c == '\t' || c == '\n' || c == '\r' || c == '\U{000B}' || c == '\U{000C}'
  }

  function TrimStart(s: string): (r: string)
    ensures |r| <= |s| && r == s[|s| - |r|..]
    ensures r == [] || !IsSpace(r[0])
    ensures forall i :: 0 <= i < |s| - |r| ==> IsSpace(s[i])
  {
    if |s| > 0 && IsSpace(s[0]) then TrimStart(s[1..]) else s
  }

  function TrimEnd(s: string): (r: string)
    ensures |r| <= |s| && r == s[..|r|]
    ensures r == [] || !IsSpace(r[|r| - 1])
    ensures forall i :: |r| <= i < |s| ==> IsSpace(s[i])
  {
    if |s| > 0 && IsSpace(s[|s| - 1]) then TrimEnd(s[..|s| - 1]) else s
  }

  /** `s.trim()`: the longest slice with no surrounding white space. */
  function Trim(s: string): (r: string)
    ensures |r| <= |s|
    ensures r == [] || (!IsSpace(r[0]) && !IsSpace(r[|r| - 1]))
    ensures var k := |s| - |TrimStart(s)|;
      && k + |r| <= |s| && r == s[k..k + |r|]
      && (forall i :: 0 <= i < k ==> IsSpace(s[i]))
      && (forall i :: k + |r| <= i < |s| ==> IsSpace(s[i]))
  {
    var t := TrimStart(s);
    var r := TrimEnd(t);
    TrimSlices(s, t, r);
    r
  }

  /** A prefix `r` of a suffix `t` of `s`, followed in `t` by white space
      only, is a slice of `s` followed by white space only. */
  lemma TrimSlices(s: string, t: string, r: string)
    requires |t| <= |s| && t == s[|s| - |t|..]
    requires |r| <= |t| && r == t[..|r|]
    requires forall i :: |r| <= i < |t| ==> IsSpace(t[i])
    ensures var k := |s| - |t|;
      && k + |r| <= |s| && r == s[k..k + |r|]
      && forall i :: k + |r| <= i < |s| ==> IsSpace(s[i])
  {
    var k := |s| - |t|;
    forall i | k + |r| <= i < |s| ensures IsSpace(s[i]) {
      assert s[i] == t[i - k];
    }
  }

  /** `s.split(sep)` for a one-character separator. */
  function Split(s: string, sep: char): (parts: seq<string>)
    ensures |parts| >= 1
    ensures forall i :: 0 <= i < |parts| ==> sep !in parts[i]
  {
    if |s| == 0 then [""]
    else
      var rest := Split(s[1..], sep);
      if s[0] == sep then [""] + rest
      else [[s[0]] + rest[0]] + rest[1..]
  }

  /** The inverse of Split: the parts joined back with the separator. */
  function Join(parts: seq<string>, sep: char): string
    requires |parts| >= 1
  {
    if |parts| == 1 then parts[0] else parts[0] + [sep] + Join(parts[1..], sep)
  }

  /** Splitting loses nothing: joining the parts gives the input back. */
  lemma {:induction false} SplitJoin(s: string, sep: char)
    ensures Join(Split(s, sep), sep) == s
  {
    if |s| > 0 {
      var rest := Split(s[1..], sep);
      SplitJoin(s[1..], sep);
      if s[0] != sep {
        if |rest| == 1 {
          assert Join(rest, sep) == rest[0];
        } else {
          assert Join(rest, sep) == rest[0] + [sep] + Join(rest[1..], sep);
          assert ([[s[0]] + rest[0]] + rest[1..])[1..] == rest[1..];
        }
      }
    }
  }

  /** ASCII lower-casing, the part of `str.lower()` that this model covers. */
  function Lower(s: string): (r: string)
    ensures |r| == |s|
    ensures forall i :: 0 <= i < |s| ==> r[i] == LowerChar(s[i])
  {
    if |s| == 0 then [] else [LowerChar(s[0])] + Lower(s[1..])
  }

  function LowerChar(c: char): char
  {
    if 'A' <= c <= 'Z' then (c as int - 'A' as int + 'a' as int) as char else c
  }

  /** `a.lower() == b.lower()`. */
  predicate SameIgnoringCase(a: string, b: string)
  {
    Lower(a) == Lower(b)
  }

  /** Decimal digits of a natural number, as `toString` writes them. */
  function NatToString(n: nat): (r: string)
    ensures |r| >= 1 && forall i :: 0 <= i < |r| ==> '0' <= r[i] <= '9'
  {
    var d := ['0', '1', '2', '3', '4', '5', '6', '7', '8', '9'];
    if n < 10 then [d[n]] else NatToString(n / 10) + [d[n % 10]]
  }

  /** `String(i)` for an integer. */
  function IntToString(i: int): (r: string)
    ensures |r| >= 1 && (r[0] == '-' <==> i < 0)
  {
    if i < 0 then "-" + NatToString(-i) else NatToString(i)
  }
}

=== FILE: content.dfy ===
/** The product scraper that runs in every browser tab: it recognises the
    retailer from the host name, decides whether the page is a product page,
    reads the product fields through the retailer's selector table and sends
    one PRODUCT_VIEW message on load and one PRODUCT_EXIT message on unload.

    The page (`window.location`, the DOM), the clock and `Math.random` are
    parameters: the DOM is a map from a CSS selector to the text content of
    the first element it selects. */
module Content {
  import opened Common

  datatype Platform = Amazon | Ebay | Walmart | Bestbuy | Target

  /** The name the script uses for a platform, both as the host-name keyword
      and as the `platform` field it reports. */
  function Name(p: Platform): string
  {
    match p
    case Amazon => "amazon"
    case Ebay => "ebay"
    case Walmart => "walmart"
    case Bestbuy => "bestbuy"
    case Target => "target"
  }

  /** Position of a platform in the order the host-name checks are made. */
  function Rank(p: Platform): nat
  {
    match p
    case Amazon => 0
    case Ebay => 1
    case Walmart => 2
    case Bestbuy => 3
    case Target => 4
  }

  /** `detectPlatform`: the first platform, in the fixed check order, whose
      name occurs in the host name; none when no name occurs. */
  function DetectPlatform(hostname: string): (r: Option<Platform>)
    ensures r.Some? ==> Contains(hostname, Name(r.value))
    ensures r.Some? ==> forall q :: Rank(q) < Rank(r.value) ==> !Contains(hostname, Name(q))
    ensures r.None? <==> forall q :: !Contains(hostname, Name(q))
  {
    if Contains(hostname, "amazon") then Some(Amazon)
    else if Contains(hostname, "ebay") then Some(Ebay)
    else if Contains(hostname, "walmart") then Some(Walmart)
    else if Contains(hostname, "bestbuy") then Some(Bestbuy)
    else if Contains(hostname, "target") then Some(Target)
    else None
  }

  /** The alternatives of each platform's product-page regular expression;
      each is a literal path fragment, so `test` is a substring search. */
  function Patterns(p: Platform): (r: seq<string>)
    ensures |r| == if p == Amazon then 2 else 1
  {
    match p
    case Amazon => ["/dp/", "/gp/product/"]
    case Ebay => ["/itm/"]
    case Walmart => ["/ip/"]
    case Bestbuy => ["/products/"]
    case Target => ["/p/"]
  }

  /** Every alternative is a whole path segment: it starts and ends with `/`. */
  lemma PatternsAreSegments(p: Platform, f: string)
    requires f in Patterns(p)
    ensures |f| >= 3 && f[0] == '/' && f[|f| - 1] == '/'
  {
  }

  /** `re.test(url)` for a regular expression that is a union of literals. */
  function MatchesAny(url: string, alternatives: seq<string>): (r: bool)
    ensures r <==> exists i :: 0 <= i < |alternatives| && Contains(url, alternatives[i])
  {
    if alternatives == [] then false
    else Contains(url, alternatives[0]) || MatchesAny(url, alternatives[1..])
  }

  /** `isProductPage`: false without a platform, otherwise whether the URL
      contains one of that platform's path fragments. */
  function IsProductPage(platform: Option<Platform>, url: string): (r: bool)
    ensures platform.None? ==> !r
    ensures platform.Some? ==>
      (r <==> exists i :: 0 <= i < |Patterns(platform.value)| && Contains(url, Patterns(platform.value)[i]))
  {
    match platform
    case None => false
    case Some(p) => MatchesAny(url, Patterns(p))
  }

  /** The product-page rule spelled out platform by platform. */
  lemma ProductPageByPlatform(url: string)
    ensures IsProductPage(Some(Amazon), url) <==> Contains(url, "/dp/") || Contains(url, "/gp/product/")
    ensures IsProductPage(Some(Ebay), url) <==> Contains(url, "/itm/")
    ensures IsProductPage(Some(Walmart), url) <==> Contains(url, "/ip/")
    ensures IsProductPage(Some(Bestbuy), url) <==> Contains(url, "/products/")
    ensures IsProductPage(Some(Target), url) <==> Contains(url, "/p/")
  {
    assert Patterns(Amazon)[0] == "/dp/" && Patterns(Amazon)[1] == "/gp/product/";
    assert Patterns(Ebay)[0] == "/itm/";
    assert Patterns(Walmart)[0] == "/ip/";
    assert Patterns(Bestbuy)[0] == "/products/";
    assert Patterns(Target)[0] == "/p/";
  }

  /** The six product fields every selector table provides. */
  const SelectorKeys: set<string> := {"title", "price", "rating", "reviews", "availability", "category"}

  /** The per-platform selector table set up by the constructor. */
  function Selectors(p: Platform): (table: map<string, string>)
    ensures table.Keys == SelectorKeys
  {
    match p
    case Amazon => map[
      "title" := "#productTitle", "price" := ".a-price-whole",
      "rating" := "#acrPopover .a-text-bold", "reviews" := "#acrCustomerReviewText",
      "availability" := "#availability span", "category" := "#wayfinding-breadcrumbs_container"]
    case Ebay => map[
      "title" := ".x-item-title__mainTitle", "price" := ".x-price-primary",
      "rating" := ".rating-stars", "reviews" := ".review-item-count",
      "availability" := ".d-quantity__availability", "category" := ".breadcrumbs"]
    case Walmart => map[
      "title" := "[itemprop=\"name\"]", "price" := "[itemprop=\"price\"]",
      "rating" := ".rating-number", "reviews" := ".review-count",
      "availability" := ".prod-ProductOffer-oosMsg", "category" := ".breadcrumb"]
    case Bestbuy => map[
      "title" := ".heading-5", "price" := ".priceView-current-price",
      "rating" := ".ratingsReviews", "reviews" := ".review-count",
      "availability" := ".fulfillment-add-to-cart-button", "category" := ".breadcrumb"]
    case Target => map[
      "title" := "[data-test=\"product-title\"]", "price" := "[data-test=\"product-price\"]",
      "rating" := ".RatingStars", "reviews" := ".h-text-sm",
      "availability" := ".h-text-availability", "category" := ".Breadcrumb"]
  }

  /** The record `getProductInfo` builds. `productDetails` holds the title. */
  datatype ProductInfo = ProductInfo(
    platform: Platform,
    productUrl: string,
    productDetails: Option<string>,
    price: Option<string>,
    rating: Option<string>,
    reviews: Option<string>,
    availability: Option<string>,
    category: Option<string>,
    timestamp: string,
    sessionId: string)

  /** The six product fields a selector table provides. */
  datatype Field = Title | Price | Rating | Reviews | Availability | Category

  /** The selector-table key of a field. */
  function Key(f: Field): (k: string)
    ensures k in SelectorKeys
  {
    match f
    case Title => "title"
    case Price => "price"
    case Rating => "rating"
    case Reviews => "reviews"
    case Availability => "availability"
    case Category => "category"
  }

  /** The selector a platform's table gives for a field. */
  function SelectorOf(p: Platform, f: Field): (s: string)
    ensures s == Selectors(p)[Key(f)]
  {
    var table := Selectors(p);
    assert Key(f) in table.Keys;
    table[Key(f)]
  }

  /** The field of a product record that a selector-table key fills. */
  function FieldFor(info: ProductInfo, f: Field): Option<string>
  {
    match f
    case Title => info.productDetails
    case Price => info.price
    case Rating => info.rating
    case Reviews => info.reviews
    case Availability => info.availability
    case Category => info.category
  }

  /** `getTextContent`: the trimmed text of the first match, or null. */
  function TextContent(dom: map<string, string>, selector: string): (r: Option<string>)
    ensures r.None? <==> selector !in dom
    ensures r.Some? ==> r.value == Trim(dom[selector])
  {
    if selector in dom then Some(Trim(dom[selector])) else None
  }

  /** `generateSessionId`; `now` and `random` stand for the `Date.now()` and
      `Math.random()` parts, which the model leaves uninterpreted. */
  function SessionId(p: Platform, now: string, random: string): (id: string)
    ensures StartsWith(id, Name(p) + "-")
  {
    var prefix := Name(p) + "-";
    var id := prefix + now + "-" + random;
    assert id[..|prefix|] == prefix;
    id
  }

  /** `getProductInfo`: null without a platform; otherwise the platform, the
      page address, one field per selector-table key and a fresh session id. */
  function GetProductInfo(platform: Option<Platform>, href: string, dom: map<string, string>,
                          timestamp: string, now: string, random: string): (r: Option<ProductInfo>)
    ensures r.None? <==> platform.None?
    ensures r.Some? ==> r.value.platform == platform.value && r.value.productUrl == href
    ensures r.Some? ==> r.value.timestamp == timestamp
    ensures r.Some? ==> StartsWith(r.value.sessionId, Name(platform.value) + "-")
    ensures r.Some? ==> forall f :: FieldFor(r.value, f) == TextContent(dom, SelectorOf(platform.value, f))
  {
    match platform
    case None => None
    case Some(p) => Some(Scrape(p, href, dom, timestamp, SessionId(p, now, random)))
  }

  /** The record of a page on platform `p`: one field per selector-table key. */
  function Scrape(p: Platform, href: string, dom: map<string, string>, timestamp: string, sessionId: string)
    : (info: ProductInfo)
    ensures info.platform == p && info.productUrl == href
    ensures info.timestamp == timestamp && info.sessionId == sessionId
    ensures forall f :: FieldFor(info, f) == TextContent(dom, SelectorOf(p, f))
  {
    var info := ProductInfo(
      p, href,
      TextContent(dom, SelectorOf(p, Title)), TextContent(dom, SelectorOf(p, Price)),
      TextContent(dom, SelectorOf(p, Rating)), TextContent(dom, SelectorOf(p, Reviews)),
      TextContent(dom, SelectorOf(p, Availability)), TextContent(dom, SelectorOf(p, Category)),
      timestamp, sessionId);
    FieldsScraped(info, p, dom);
    info
  }

  /** Each field of a record built from the six lookups is its lookup. */
  lemma FieldsScraped(info: ProductInfo, p: Platform, dom: map<string, string>)
    requires info.productDetails == TextContent(dom, SelectorOf(p, Title))
    requires info.price == TextContent(dom, SelectorOf(p, Price))
    requires info.rating == TextContent(dom, SelectorOf(p, Rating))
    requires info.reviews == TextContent(dom, SelectorOf(p, Reviews))
    requires info.availability == TextContent(dom, SelectorOf(p, Availability))
    requires info.category == TextContent(dom, SelectorOf(p, Category))
    ensures forall f :: FieldFor(info, f) == TextContent(dom, SelectorOf(p, f))
  {
    forall f ensures FieldFor(info, f) == TextContent(dom, SelectorOf(p, f)) {
      match f
      case Title =>
      case Price =>
      case Rating =>
      case Reviews =>
      case Availability =>
      case Category =>
    }
  }

  /** A product page always has a platform, so it always yields a record:
      the null check that follows the page check never fires. */
  lemma ProductPageHasInfo(platform: Option<Platform>, href: string, dom: map<string, string>,
                           timestamp: string, now: string, random: string)
    requires IsProductPage(platform, href)
    ensures GetProductInfo(platform, href, dom, timestamp, now, random).Some?
  {
  }

  /** `Math.round(ms / 1000)`: the nearest whole second, halves rounded up. */
  function RoundToSeconds(ms: int): (s: int)
    ensures s * 1000 - 500 <= ms < s * 1000 + 500
  {
    (ms + 500) / 1000
  }

  /** The messages the scraper hands to `chrome.runtime.sendMessage`. */
  datatype Message =
    | ProductView(info: ProductInfo)
    | ProductExit(info: ProductInfo, scrollDepth: int, timeSpent: int, totalTimeSpent: int)
  {
    function Type(): string
    {
      if ProductView? then "PRODUCT_VIEW" else "PRODUCT_EXIT"
    }

    function Event(): string
    {
      if ProductView? then "page_view" else "page_exit"
    }

    /** The fields a message writes after the spread product record: the
        interaction metrics for an exit, and the `event` tag. */
    function Added(): (a: map<string, Value>)
      ensures a.Keys == {"event"} + (if ProductExit? then {"scrollDepth", "timeSpent", "totalTimeSpent"} else {})
      ensures a["event"] == Str(Event())
      ensures ProductExit? ==>
        && a["scrollDepth"] == Number(scrollDepth as real) && a["timeSpent"] == Number(timeSpent as real)
        && a["totalTimeSpent"] == Number(totalTimeSpent as real)
    {
      match this
      case ProductView(_) => map["event" := Str(Event())]
      case ProductExit(_, scrollDepth, timeSpent, totalTimeSpent) =>
        map["scrollDepth" := Number(scrollDepth as real), "timeSpent" := Number(timeSpent as real),
            "event" := Str(Event()), "totalTimeSpent" := Number(totalTimeSpent as real)]
    }

    /** The `data` object of the message: the product record spread out,
        then the added fields. */
    function Data(): (d: map<string, Value>)
      ensures d.Keys == InfoKeys + Added().Keys
      ensures d["event"] == Str(Event())
      ensures forall k :: k in InfoKeys ==> d[k] == InfoFields(info)[k]
      ensures ProductExit? ==>
        && d["scrollDepth"] == Number(scrollDepth as real) && d["timeSpent"] == Number(timeSpent as real)
        && d["totalTimeSpent"] == Number(totalTimeSpent as real)
    {
      AddedOutsideInfo(this);
      InfoFields(info) + Added()
    }
  }

  /** The keys of a product record. */
  const InfoKeys: set<string> := {"platform", "productUrl", "productDetails", "price", "rating", "reviews",
                                  "availability", "category", "timestamp", "sessionId"}

  /** The keys a message adds are not keys of the product record. */
  lemma MessageKeysOutsideInfo()
    ensures "event" !in InfoKeys && "scrollDepth" !in InfoKeys
    ensures "timeSpent" !in InfoKeys && "totalTimeSpent" !in InfoKeys
  {
  }

  /** No field a message adds overwrites a field of the product record. */
  lemma AddedOutsideInfo(m: Message)
    ensures forall k :: k in InfoKeys ==> k !in m.Added()
  {
    MessageKeysOutsideInfo();
  }

  /** A text field as JSON carries it: the string, or null. */
  function TextValue(o: Option<string>): (v: Value)
    ensures o.Some? ==> v == Str(o.value)
    ensures o.None? ==> v == Null
  {
    if o.Some? then Str(o.value) else Null
  }

  /** A product record as the object that `sendMessage` serialises. */
  function InfoFields(info: ProductInfo): (m: map<string, Value>)
    ensures m.Keys == InfoKeys
    ensures m["platform"] == Str(Name(info.platform)) && m["productUrl"] == Str(info.productUrl)
    ensures m["sessionId"] == Str(info.sessionId) && m["productDetails"] == TextValue(info.productDetails)
  {
    map["platform" := Str(Name(info.platform)), "productUrl" := Str(info.productUrl),
        "productDetails" := TextValue(info.productDetails), "price" := TextValue(info.price),
        "rating" := TextValue(info.rating), "reviews" := TextValue(info.reviews),
        "availability" := TextValue(info.availability), "category" := TextValue(info.category),
        "timestamp" := Str(info.timestamp), "sessionId" := Str(info.sessionId)]
  }

  /** What the `beforeunload` listener captured when it was registered: the
      product record and the interaction metrics as they stood then. */
  datatype ExitHandler = ExitHandler(info: ProductInfo, scrollDepth: int, timeSpent: int)

  /** `trackUserInteraction` returns its metrics object at once, before any
      scroll event can run: a depth of 0 rounds to 0, and with no scroll time
      recorded the time spent is 0. */
  function InitialMetrics(): (m: (int, int))
    ensures m == (0, 0)
  {
    var scrollDepth := 0;
    var lastScrollTime: Option<int> := None;
    (RoundToSeconds(scrollDepth * 1000), if lastScrollTime.Some? then 1 else 0)
  }

  class ProductTracker {
    const currentPlatform: Option<Platform>
    const href: string
    /** Messages sent so far, oldest first. */
    var sent: seq<Message>
    /** The `beforeunload` listener, once `initialize` has registered it. */
    var exitHandler: Option<ExitHandler>

    /** The constructor: detect the platform from the host name, then run
        `initialize` against the page as loaded. */
    constructor (hostname: string, href: string, dom: map<string, string>,
                 timestamp: string, now: string, random: string)
      ensures currentPlatform == DetectPlatform(hostname) && this.href == href
      ensures !IsProductPage(currentPlatform, href) ==> sent == [] && exitHandler.None?
      ensures IsProductPage(currentPlatform, href) ==>
        var info := GetProductInfo(currentPlatform, href, dom, timestamp, now, random).value;
        sent == [ProductView(info)] && exitHandler == Some(ExitHandler(info, 0, 0))
    {
      currentPlatform := DetectPlatform(hostname);
      this.href := href;
      sent := [];
      exitHandler := None;
      new;
      Initialize(dom, timestamp, now, random);
    }

    /** `initialize`: nothing on a page that is not a product page; otherwise
        exactly one PRODUCT_VIEW carrying the product record, and one exit
        listener that holds the same record and the initial metrics. */
    method Initialize(dom: map<string, string>, timestamp: string, now: string, random: string)
      modifies this
      ensures !IsProductPage(currentPlatform, href) ==>
        sent == old(sent) && exitHandler == old(exitHandler)
      ensures IsProductPage(currentPlatform, href) ==>
        var info := GetProductInfo(currentPlatform, href, dom, timestamp, now, random).value;
        && sent == old(sent) + [ProductView(info)]
        && exitHandler == Some(ExitHandler(info, 0, 0))
    {
      if !IsProductPage(currentPlatform, href) {
        return;
      }
      ProductPageHasInfo(currentPlatform, href, dom, timestamp, now, random);
      var info := GetProductInfo(currentPlatform, href, dom, timestamp, now, random).value;
      sent := sent + [ProductView(info)];
      var (scrollDepth, timeSpent) := InitialMetrics();
      exitHandler := Some(ExitHandler(info, scrollDepth, timeSpent));
    }

    /** The page unloads `elapsedMs` milliseconds after the session started:
        the registered listener, if any, sends one PRODUCT_EXIT. */
    method BeforeUnload(elapsedMs: int)
      modifies this`sent
      ensures exitHandler.None? ==> sent == old(sent)
      ensures exitHandler.Some? ==>
        var h := exitHandler.value;
        sent == old(sent) + [ProductExit(h.info, h.scrollDepth, h.timeSpent, RoundToSeconds(elapsedMs))]
    {
      if exitHandler.Some? {
        var h := exitHandler.value;
        sent := sent + [ProductExit(h.info, h.scrollDepth, h.timeSpent, RoundToSeconds(elapsedMs))];
      }
    }
  }

  /** A whole page visit: load, then unload. A product page produces exactly
      a view followed by an exit for the same record, whose scroll depth and
      time spent are both 0; any other page produces nothing. */
  method Visit(hostname: string, href: string, dom: map<string, string>,
               timestamp: string, now: string, random: string, elapsedMs: int)
    returns (messages: seq<Message>)
    ensures !IsProductPage(DetectPlatform(hostname), href) ==> messages == []
    ensures IsProductPage(DetectPlatform(hostname), href) ==>
      && |messages| == 2
      && messages[0].Type() == "PRODUCT_VIEW" && messages[1].Type() == "PRODUCT_EXIT"
      && messages[0].info == messages[1].info
      && messages[0].info.productUrl == href
      && messages[1].scrollDepth == 0 && messages[1].timeSpent == 0
  {
    var tracker := new ProductTracker(hostname, href, dom, timestamp, now, random);
    tracker.BeforeUnload(elapsedMs);
    messages := tracker.sent;
    if IsProductPage(DetectPlatform(hostname), href) {
      ProductPageHasInfo(DetectPlatform(hostname), href, dom, timestamp, now, random);
      var info := GetProductInfo(DetectPlatform(hostname), href, dom, timestamp, now, random).value;
      assert messages == [ProductView(info), ProductExit(info, 0, 0, RoundToSeconds(elapsedMs))];
    }
  }
}

=== FILE: cors.dfy ===
/** The CORS origin rule of the backend (`corsOptions.origin`). */
module Cors {
  import opened Common

  datatype Decision = Allow | Deny(message: string)

  /** The two accepted origin prefixes. */
  const ExtensionPrefix := "chrome-extension://"
  const LocalPrefix := "http://localhost"

  /** `origin?.startsWith(...) || origin?.startsWith(...)`: an absent origin
      makes both tests `undefined`, so it is refused like any other miss. */
  function CheckOrigin(origin: Option<string>): (d: Decision)
    ensures d.Allow? <==> origin.Some? && (StartsWith(origin.value, ExtensionPrefix) || StartsWith(origin.value, LocalPrefix))
    ensures d.Deny? ==> d.message == "Not allowed by CORS"
  {
    match origin
    case None => Deny("Not allowed by CORS")
    case Some(o) =>
      if StartsWith(o, ExtensionPrefix) || StartsWith(o, LocalPrefix) then Allow
      else Deny("Not allowed by CORS")
  }

  /** Acceptance is a prefix test: extending an accepted origin keeps it accepted. */
  lemma AcceptedOriginsAreExtensionClosed(origin: string, suffix: string)
    requires CheckOrigin(Some(origin)).Allow?
    ensures CheckOrigin(Some(origin + suffix)).Allow?
  {
    var o := origin + suffix;
    if StartsWith(origin, ExtensionPrefix) {
      assert o[..|ExtensionPrefix|] == origin[..|ExtensionPrefix|];
    } else {
      assert o[..|LocalPrefix|] == origin[..|LocalPrefix|];
    }
  }

  /** Consequently a host that merely begins with `localhost` is accepted too. */
  lemma LookalikeHostAccepted()
    ensures CheckOrigin(Some("http://localhost.example.com")).Allow?
  {
    AcceptedOriginsAreExtensionClosed(LocalPrefix, ".example.com");
  }

  /** An https localhost origin does not start with the `http://localhost` prefix. */
  lemma SecureLocalhostRefused()
    ensures CheckOrigin(Some("https://localhost:3000")) == Deny("Not allowed by CORS")
  {
    assert "https://localhost:3000"[4] != LocalPrefix[4];
    assert "https://localhost:3000"[0] != ExtensionPrefix[0];
  }
}

=== FILE: event.dfy ===
/** Recording a product event in the routed server
    (`server/controllers/Event.js`): look the user up by name, then save the
    request body as an event that belongs to that user. The database calls
    are an abstract store; whether the save throws is a parameter. */
module EventController {
  import opened Common

  /** A saved event: its id, the owning user's id, and the body fields
      other than `userId`. */
  datatype SavedEvent = SavedEvent(id: nat, userId: nat, fields: map<string, Value>)

  datatype EventResponse =
    | Recorded(eventId: nat)
    | UserNotFound
    | RecordFailed(details: Option<string>)
  {
    function Status(): int
    {
      match this
      case Recorded(_) => 200
      case UserNotFound => 404
      case RecordFailed(_) => 500
    }

    function Success(): bool
    {
      Recorded?
    }
  }

  /** `User.findOne({username})` for a string name: the user with that
      name, if any. Every other value is taken to match nobody, which
      leaves out the query casting numbers to strings and treating an
      object such as `{"$ne": null}` as an operator that matches any user. */
  function FindUser(users: map<string, nat>, username: Value): (r: Option<nat>)
    ensures r.Some? <==> username.Str? && username.s in users
    ensures r.Some? ==> r.value == users[username.s]
  {
    if username.Str? && username.s in users then Some(users[username.s]) else None
  }

  class EventStore {
    /** User name to user id, as the users collection resolves it. */
    var users: map<string, nat>
    /** Saved events, oldest first. */
    var events: seq<SavedEvent>
    /** The id the next saved event receives. */
    var nextId: nat

    constructor (users: map<string, nat>)
      ensures this.users == users && events == [] && nextId == 0
    {
      this.users := users;
      events := [];
      nextId := 0;
    }

    /** `recordEvent`: 404 and nothing saved for an unknown user; 500 and
        nothing saved when the save throws, with `details` only in
        development mode; otherwise one event is appended whose `userId` is
        the found user's id and whose other fields are the body's, and the
        reply carries its id. */
    method RecordEvent(body: map<string, Value>, saveError: Option<string>, development: bool)
      returns (resp: EventResponse)
      modifies this`events, this`nextId
      ensures FindUser(users, Get(body, "username")).None? ==>
        resp == UserNotFound && events == old(events) && nextId == old(nextId)
      ensures FindUser(users, Get(body, "username")).Some? && saveError.Some? ==>
        && resp == RecordFailed(if development then Some(saveError.value) else None)
        && events == old(events) && nextId == old(nextId)
      ensures FindUser(users, Get(body, "username")).Some? && saveError.None? ==>
        && resp == Recorded(old(nextId))
        && events == old(events) + [SavedEvent(old(nextId), FindUser(users, Get(body, "username")).value, body - {"userId"})]
        && nextId == old(nextId) + 1
      ensures resp.Status() == 200 <==> resp.Success()
    {
      var user := FindUser(users, Get(body, "username"));
      if user.None? {
        return UserNotFound;
      }
      if saveError.Some? {
        return RecordFailed(if development then Some(saveError.value) else None);
      }
      var event := SavedEvent(nextId, user.value, body - {"userId"});
      events := events + [event];
      resp := Recorded(nextId);
      nextId := nextId + 1;
    }
  }
}

=== FILE: extractor.dfy ===
/** The category extractor (`server/utils/categoryExtractor.js`): it reads
    the text a Python analysis script printed, takes the last line that is
    valid JSON, and turns its `category_analysis.categories` into cards of
    a title and a list of product names. `JSON.parse` is an oracle that
    either yields a value or throws (None). */
module CategoryExtractor {
  import opened Common

  /** `JSON.parse`: a value, or None where the real one throws. */
  type JsonParser = string -> Option<Value>

  datatype CategoryCard = CategoryCard(title: string, products: seq<string>)

  /** `line.trim()` for every line, in order. */
  function TrimAll(lines: seq<string>): (trimmed: seq<string>)
    ensures |trimmed| == |lines|
    ensures forall j :: 0 <= j < |lines| ==> trimmed[j] == Trim(lines[j])
  {
    seq(|lines|, j requires 0 <= j < |lines| => Trim(lines[j]))
  }

  /** A trimmed line the backward scan stops at: non-blank, and accepted by
      the parser. */
  predicate Chosen(trimmed: seq<string>, i: nat, parse: JsonParser)
    requires i < |trimmed|
  {
    trimmed[i] != "" && parse(trimmed[i]).Some?
  }

  /** The index of the last chosen line below `n`, scanning downwards. */
  function LastBelow(trimmed: seq<string>, n: nat, parse: JsonParser): (r: Option<nat>)
    requires n <= |trimmed|
    ensures r.Some? ==> r.value < n && Chosen(trimmed, r.value, parse)
    ensures r.Some? ==> forall j :: r.value < j < n ==> !Chosen(trimmed, j, parse)
    ensures r.None? ==> forall j :: 0 <= j < n ==> !Chosen(trimmed, j, parse)
  {
    if n == 0 then None
    else if Chosen(trimmed, n - 1, parse) then Some(n - 1)
    else LastBelow(trimmed, n - 1, parse)
  }

  /** The index of the line the scan picks: the last chosen one. */
  function LastParseable(trimmed: seq<string>, parse: JsonParser): Option<nat>
  {
    LastBelow(trimmed, |trimmed|, parse)
  }

  /** The backward `for` loop: from the last line to the first, skip blank
      lines and lines `JSON.parse` throws on; keep the first other line. */
  method FindJsonLine(lines: seq<string>, parse: JsonParser) returns (jsonLine: string)
    ensures var trimmed := TrimAll(lines);
      var k := LastParseable(trimmed, parse);
      jsonLine == if k.Some? then trimmed[k.value] else ""
  {
    ghost var trimmed := TrimAll(lines);
    jsonLine := "";
    var i := |lines| - 1;
    while i >= 0
      invariant -1 <= i < |lines|
      invariant forall j :: i < j < |lines| ==> !Chosen(trimmed, j, parse)
      invariant jsonLine == ""
    {
      var line := Trim(lines[i]);
      assert line == trimmed[i];
      if line != "" {
        if parse(line).Some? {
          jsonLine := line;
          LastIsUnique(trimmed, parse, i);
          return;
        }
      }
      i := i - 1;
    }
    LastNone(trimmed, parse);
  }

  lemma LastIsUnique(trimmed: seq<string>, parse: JsonParser, i: nat)
    requires i < |trimmed| && Chosen(trimmed, i, parse)
    requires forall j :: i < j < |trimmed| ==> !Chosen(trimmed, j, parse)
    ensures LastParseable(trimmed, parse) == Some(i)
  {
  }

  lemma LastNone(trimmed: seq<string>, parse: JsonParser)
    requires forall j :: 0 <= j < |trimmed| ==> !Chosen(trimmed, j, parse)
    ensures LastParseable(trimmed, parse).None?
  {
  }

  /** The names of the entries that are truthy and have a string
      `product_name`, in their original order. */
  function ProductNames(products: seq<Value>): (names: seq<string>)
    ensures |names| <= |products|
    ensures forall i :: 0 <= i < |products| && Named(products[i]) ==> NameOf(products[i]) in names
    ensures forall n :: n in names ==> exists i :: 0 <= i < |products| && Named(products[i]) && NameOf(products[i]) == n
  {
    if products == [] then []
    else
      var rest := ProductNames(products[1..]);
      var p := products[0];
      assert forall i :: 1 <= i < |products| ==> products[i] == products[1..][i - 1];
      if Named(p) then [NameOf(p)] + rest else rest
  }

  /** The product filter: a truthy product with a string name. */
  predicate Named(p: Value)
  {
    Truthy(p) && Prop(p, "product_name").Str?
  }

  /** The name the product `map` step takes. */
  function NameOf(p: Value): string
    requires Named(p)
  {
    Prop(p, "product_name").s
  }

  /** The product names keep the products' order: the chain distributes
      over concatenation. */
  lemma {:induction false} ProductNamesAppend(a: seq<Value>, b: seq<Value>)
    ensures ProductNames(a + b) == ProductNames(a) + ProductNames(b)
  {
    if a == [] {
      assert a + b == b;
    } else {
      assert (a + b)[1..] == a[1..] + b;
      ProductNamesAppend(a[1..], b);
    }
  }

  /** The first filter: a truthy category with a string name and an array
      of products. */
  predicate WellFormed(c: Value)
  {
    Truthy(c) && Prop(c, "category_name").Str? && Prop(c, "products").Arr?
  }

  /** The card the `map` step makes of a well-formed category. */
  function CardOf(c: Value): CategoryCard
    requires WellFormed(c)
  {
    CategoryCard(Prop(c, "category_name").s, ProductNames(Prop(c, "products").items))
  }

  /** Whether a category survives all three steps. */
  predicate Kept(c: Value)
  {
    WellFormed(c) && CardOf(c).products != []
  }

  /** The `filter` / `map` / `filter` chain over the categories. */
  function KeepCategories(categories: seq<Value>): (cards: seq<CategoryCard>)
    ensures |cards| <= |categories|
    ensures forall k :: 0 <= k < |cards| ==> cards[k].products != []
  {
    if categories == [] then []
    else
      var rest := KeepCategories(categories[1..]);
      if Kept(categories[0]) then [CardOf(categories[0])] + rest else rest
  }

  /** The chain keeps order: it distributes over concatenation. */
  lemma {:induction false} KeepCategoriesAppend(a: seq<Value>, b: seq<Value>)
    ensures KeepCategories(a + b) == KeepCategories(a) + KeepCategories(b)
  {
    if a == [] {
      assert a + b == b;
    } else {
      assert (a + b)[0] == a[0];
      assert (a + b)[1..] == a[1..] + b;
      KeepCategoriesAppend(a[1..], b);
    }
  }

  /** Whether `card` is the card of one of the kept `categories`. */
  predicate CardOfKept(categories: seq<Value>, card: CategoryCard)
  {
    exists i :: 0 <= i < |categories| && Kept(categories[i]) && card == CardOf(categories[i])
  }

  /** Every output card is the card of a kept input category. */
  lemma KeepCategoriesSound(categories: seq<Value>)
    ensures forall k :: 0 <= k < |KeepCategories(categories)| ==> CardOfKept(categories, KeepCategories(categories)[k])
  {
    forall k | 0 <= k < |KeepCategories(categories)|
      ensures CardOfKept(categories, KeepCategories(categories)[k])
    {
      var i := SourceOf(categories, k);
    }
  }

  /** The index of the input category the `k`-th output card comes from. */
  lemma {:induction false} SourceOf(categories: seq<Value>, k: nat) returns (i: nat)
    requires k < |KeepCategories(categories)|
    ensures i < |categories| && Kept(categories[i]) && KeepCategories(categories)[k] == CardOf(categories[i])
  {
    var cards := KeepCategories(categories);
    var tail := categories[1..];
    if Kept(categories[0]) && k == 0 {
      i := 0;
    } else {
      var k' := if Kept(categories[0]) then k - 1 else k;
      assert cards[k] == KeepCategories(tail)[k'];
      var i' := SourceOf(tail, k');
      i := i' + 1;
      assert categories[i] == tail[i'];
    }
  }

  /** The card of every kept input category is in the output. */
  lemma {:induction false} KeepCategoriesComplete(categories: seq<Value>)
    ensures forall i :: 0 <= i < |categories| && Kept(categories[i]) ==> CardOf(categories[i]) in KeepCategories(categories)
  {
    if categories != [] {
      var tail := categories[1..];
      KeepCategoriesComplete(tail);
      var cards := KeepCategories(categories);
      forall i | 0 <= i < |categories| && Kept(categories[i]) ensures CardOf(categories[i]) in cards {
        if i > 0 {
          assert categories[i] == tail[i - 1];
        }
      }
    }
  }

  /** From the parsed document to the cards: `[]` unless the document is
      truthy, has a truthy `category_analysis` and an array `categories`. */
  function ExtractFromData(data: Value): (cards: seq<CategoryCard>)
    ensures !Truthy(data) || !Truthy(Prop(data, "category_analysis")) ==> cards == []
    ensures !Prop(Prop(data, "category_analysis"), "categories").Arr? ==> cards == []
    ensures forall k :: 0 <= k < |cards| ==> cards[k].products != []
    ensures var analysis := Prop(data, "category_analysis");
            Truthy(data) && Truthy(analysis) && Prop(analysis, "categories").Arr? ==>
              cards == KeepCategories(Prop(analysis, "categories").items)
  {
    if !Truthy(data) || !Truthy(Prop(data, "category_analysis"))
       || !Prop(Prop(data, "category_analysis"), "categories").Arr?
    then []
    else KeepCategories(Prop(Prop(data, "category_analysis"), "categories").items)
  }

  /** `extractCategories`: a non-string input makes `split` throw, which the
      outer `catch` turns into `[]`; otherwise split into lines, pick the last
      parseable one (`[]` when none), parse it and extract the cards. */
  method ExtractCategories(pythonOutput: Value, parse: JsonParser) returns (cards: seq<CategoryCard>)
    ensures !pythonOutput.Str? ==> cards == []
    ensures pythonOutput.Str? ==>
      var trimmed := TrimAll(Split(pythonOutput.s, '\n'));
      var k := LastParseable(trimmed, parse);
      && (k.None? ==> cards == [])
      && (k.Some? ==> cards == ExtractFromData(parse(trimmed[k.value]).value))
    ensures forall k :: 0 <= k < |cards| ==> cards[k].products != []
  {
    if !pythonOutput.Str? {
      return [];
    }
    var lines := Split(pythonOutput.s, '\n');
    var jsonLine := FindJsonLine(lines, parse);
    if jsonLine == "" {
      return [];
    }
    var data := parse(jsonLine);
    cards := ExtractFromData(data.value);
  }
}

=== FILE: pipeline.dfy ===
/** What the two backends make of the bodies the extension actually posts:
    the scraper's message data, enriched by the relay. The scraper never
    sends `productTitle`, `username` or `eventType`. */
module Pipeline {
  import opened Common
  import Content
  import Background
  import Validation
  import ApiServer

  /** The body the relay posts for a scraper message. */
  function PostedBody(m: Content.Message, version: string, recordedAt: string): (b: map<string, Value>)
    ensures b.Keys == m.Data().Keys + {"extensionVersion", "recordedAt"}
  {
    Background.EnrichedBody(m.Data(), version, recordedAt)
  }

  /** Every key a posted body can have. */
  const PostedKeys: set<string> := Content.InfoKeys +
    {"event", "scrollDepth", "timeSpent", "totalTimeSpent", "extensionVersion", "recordedAt"}

  lemma PostedKeysBound(m: Content.Message, version: string, recordedAt: string)
    ensures PostedBody(m, version, recordedAt).Keys <= PostedKeys
  {
  }

  /** The posted body has no `username` and no `eventType`. */
  lemma PostedBodyLacksUserAndType(m: Content.Message, version: string, recordedAt: string)
    ensures "username" !in PostedBody(m, version, recordedAt)
    ensures "eventType" !in PostedBody(m, version, recordedAt)
  {
    PostedKeysBound(m, version, recordedAt);
    UsernameNotPosted();
    EventTypeNotPosted();
  }

  lemma UsernameNotPosted()
    ensures "username" !in PostedKeys
  {
  }

  lemma EventTypeNotPosted()
    ensures "eventType" !in PostedKeys
  {
  }

  /** The routed server's check refuses every posted body: it requires
      `productTitle` and `username`, which the scraper never sends. */
  lemma RoutedServerRejectsExtensionEvents(m: Content.Message, version: string, recordedAt: string)
    ensures Validation.ValidateEventPayload(PostedBody(m, version, recordedAt))
      == Validation.Reject(400, "Missing required fields", Validation.ReportedFields)
  {
    PostedBodyLacksUserAndType(m, version, recordedAt);
  }

  /** The four fields the standalone check reads, as the body carries them. */
  lemma PostedBodyRequiredFields(m: Content.Message, version: string, recordedAt: string)
    ensures var b := PostedBody(m, version, recordedAt);
      && Get(b, "sessionId") == Str(m.info.sessionId)
      && Get(b, "platform") == Str(Content.Name(m.info.platform))
      && Get(b, "productUrl") == Str(m.info.productUrl)
      && Get(b, "productDetails") == Content.TextValue(m.info.productDetails)
  {
    var d := m.Data();
    assert d["sessionId"] == Str(m.info.sessionId);
    assert d["platform"] == Str(Content.Name(m.info.platform));
    assert d["productUrl"] == Str(m.info.productUrl);
    assert d["productDetails"] == Content.TextValue(m.info.productDetails);
  }

  /** The standalone server's payload check passes a posted body exactly
      when the scraper found a non-empty title. */
  lemma StandaloneCheckNeedsTitle(m: Content.Message, version: string, recordedAt: string)
    requires m.info.productUrl != "" && m.info.sessionId != ""
    ensures ApiServer.ValidateEventPayload(PostedBody(m, version, recordedAt)).Next?
      <==> m.info.productDetails.Some? && m.info.productDetails.value != ""
  {
    PostedBodyRequiredFields(m, version, recordedAt);
    NameNonEmpty(m.info.platform);
    CheckOnFields(PostedBody(m, version, recordedAt), m.info.sessionId, Content.Name(m.info.platform),
                  m.info.productUrl, m.info.productDetails);
  }

  lemma NameNonEmpty(p: Content.Platform)
    ensures Content.Name(p) != ""
  {
  }

  /** The standalone check on a body whose three identifying fields are
      non-empty strings depends on the title alone. */
  lemma CheckOnFields(b: map<string, Value>, sessionId: string, platform: string, productUrl: string,
                      title: Option<string>)
    requires sessionId != "" && platform != "" && productUrl != ""
    requires Get(b, "sessionId") == Str(sessionId) && Get(b, "platform") == Str(platform)
    requires Get(b, "productUrl") == Str(productUrl) && Get(b, "productDetails") == Content.TextValue(title)
    ensures ApiServer.ValidateEventPayload(b).Next? <==> title.Some? && title.value != ""
  {
  }

  /** Even a body that passes the standalone check is never saved: without
      `eventType` the schema refuses it, so the reply is 500. */
  lemma StandaloneServerNeverSavesExtensionEvents(m: Content.Message, version: string, recordedAt: string,
                                                  extensionId: Option<string>, tabId: Option<string>)
    ensures !ApiServer.SchemaAccepts(ApiServer.BuildRecord(PostedBody(m, version, recordedAt), extensionId, tabId))
  {
    PostedBodyLacksUserAndType(m, version, recordedAt);
    ApiServer.MissingEventTypeFailsSave(PostedBody(m, version, recordedAt), extensionId, tabId);
  }
}

=== FILE: user.dfy ===
/** Registration and login (`server/controllers/User.js`) over the users
    collection. The collection is keyed by user name, which is how the
    schema's unique index on `username` shows up in the model. */
module UserController {
  import opened Common

  datatype User = User(username: string, email: string, password: string, goals: seq<string>, budget: real)

  datatype RegisterResponse =
    | Registered(user: User)
    | RegisterFailed(status: int, message: string)

  datatype LoginResponse =
    | LoggedIn(username: string, token: string)
    | LoginFailed(status: int, message: string)

  /** The schema's `required` checks on the three string fields: Mongoose
      refuses a missing or empty string. */
  predicate RequiredPresent(username: string, email: string, password: string): (ok: bool)
    ensures !ok <==> username == "" || email == "" || password == ""
  {
    username != "" && email != "" && password != ""
  }

  class UserStore {
    /** The users collection; the key is the unique user name. */
    var users: map<string, User>

    ghost predicate Valid()
      reads this
    {
      forall name :: name in users ==> users[name].username == name
    }

    constructor ()
      ensures Valid() && users == map[]
    {
      users := map[];
    }

    /** `register`: saves exactly the given fields, unless a required field
        is missing or the user name is taken (duplicate key), both of which
        answer 400 and save nothing. */
    method Register(username: string, email: string, password: string, goals: seq<string>, budget: real)
      returns (resp: RegisterResponse)
      requires Valid()
      modifies this
      ensures Valid()
      ensures resp.Registered? <==> RequiredPresent(username, email, password) && username !in old(users)
      ensures resp.Registered? ==>
        && resp.user == User(username, email, password, goals, budget)
        && users == old(users)[username := resp.user]
      ensures resp.RegisterFailed? ==>
        users == old(users) && resp.status == 400 && resp.message == "Error creating user"
      ensures resp.Registered? ==> Login(username, password) == LoggedIn(username, "logged-in")
    {
      if !RequiredPresent(username, email, password) || username in users {
        return RegisterFailed(400, "Error creating user");
      }
      var user := User(username, email, password, goals, budget);
      users := users[username := user];
      resp := Registered(user);
    }

    /** `login`: a read-only lookup followed by a plain string comparison of
        the passwords; success carries the stored name and a fixed token. */
    function Login(username: string, password: string): (r: LoginResponse)
      reads this
      requires Valid()
      ensures r.LoggedIn? <==> username in users && users[username].password == password
      ensures r.LoggedIn? ==> r.username == username && r.token == "logged-in"
      ensures r.LoginFailed? ==> r.status == 400 && r.message == "Invalid credentials"
    {
      if username !in users || password != users[username].password then
        LoginFailed(400, "Invalid credentials")
      else
        LoggedIn(users[username].username, "logged-in")
    }
  }

  /** A second registration under the same name is refused, whatever the
      other fields, and the first account is kept as it was. */
  method RegisterTwice(name: string, email1: string, password1: string, email2: string, password2: string)
    returns (first: RegisterResponse, second: RegisterResponse)
    requires RequiredPresent(name, email1, password1)
    ensures first.Registered?
    ensures second == RegisterFailed(400, "Error creating user")
  {
    var store := new UserStore();
    first := store.Register(name, email1, password1, [], 0.0);
    second := store.Register(name, email2, password2, ["save"], 100.0);
  }
}

=== FILE: validation.dfy ===
/** The required-field check that guards `POST /api/events` in the routed
    server (`validateEventPayload` middleware). */
module Validation {
  import opened Common

  /** The body fields the middleware reads. */
  const CheckedFields: seq<string> := ["sessionId", "platform", "productUrl", "productTitle", "username"]

  /** The list the 400 response reports; it names `userId` where the check
      reads `username`. */
  const ReportedFields: seq<string> := ["sessionId", "platform", "productUrl", "productTitle", "userId"]

  /** A middleware either passes the request on (`next()`) or answers it. */
  datatype Verdict = Next | Reject(status: int, error: string, requiredFields: seq<string>)

  /** `validateEventPayload`: reject with 400 when any checked field is
      falsy, otherwise call `next` and send nothing. */
  function ValidateEventPayload(body: map<string, Value>): (v: Verdict)
    ensures v.Next? <==> forall f :: f in CheckedFields ==> Truthy(Get(body, f))
    ensures v.Reject? ==>
      v.status == 400 && v.error == "Missing required fields" && v.requiredFields == ReportedFields
  {
    if !Truthy(Get(body, "sessionId")) || !Truthy(Get(body, "platform")) || !Truthy(Get(body, "productUrl"))
       || !Truthy(Get(body, "productTitle")) || !Truthy(Get(body, "username"))
    then Reject(400, "Missing required fields", ReportedFields)
    else Next
  }

  /** An empty string counts as missing, since the check is truthiness. */
  lemma EmptyStringIsMissing(body: map<string, Value>, field: string)
    requires field in CheckedFields
    requires field in body && body[field] == Str("")
    ensures ValidateEventPayload(body) == Reject(400, "Missing required fields", ReportedFields)
  {
    assert !Truthy(Get(body, field));
  }

  /** The price is not checked: whatever it holds, the verdict is the same. */
  lemma PriceIsNotChecked(body: map<string, Value>, price: Value)
    ensures ValidateEventPayload(body["price" := price]) == ValidateEventPayload(body)
  {
    var b := body["price" := price];
    assert forall f :: f in CheckedFields ==> Get(b, f) == Get(body, f);
  }
}
